=== FILE: README.md ===
# A Code of Ice and Fire — game state core in Dafny

This project models `GameState`, the core of the referee for the two-player
territory game *A Code of Ice and Fire*. It covers three parts.

- **Map generation.** A random VOID/NEUTRAL fill goes through a cellular
  automaton and then a VOID/NEUTRAL inversion. The board is made
  point-symmetric and its corner blocks are cleared. Corridors are then carved
  in one pass, which connects all NEUTRAL terrain, and each cell gets its
  neighbour links.
- **Turn logic.** Each turn recomputes a player's active territory by a
  breadth-first search from the player's HQ. Units cut off from it are killed,
  gold is settled, and the player's army is wiped out if their balance goes
  negative.
- **Actions and the read side.** The actions are train, move, build and
  clearing a cell. The read side covers the map characters sent to a player,
  owner indices relative to the viewer, and the final scores.

The board is a map from positions to owners (`Grid`), with owners `Void`,
`Neutral` or `Player(i)`. The game state is an immutable record (`State.Game`)
holding:

- the cells;
- the neighbour links;
- the HQ list;
- the building list;
- the unit registry;
- one gold counter per player.

Each operation is a function or method from one such record to the next.
Randomness is an input: the initial fill, plus a chooser standing for
`generator.nextInt(size)`. Every constant of the game is a parameter, and the
`Rules` record holds the incomes and cost tables.

`computeNeighbours` (`GameState.java:53-66`) checks only the target of a
link, so a VOID cell does get links to its non-VOID neighbours.
`Neighbours.CellLinks` keeps this behaviour rather than leaving VOID cells
unlinked. No link ever leads into a
VOID cell (`Neighbours.LinksStayInside`).

Modules, in dependency order:

- `Grid`: the board.
- `Paths`: NEUTRAL paths.
- `Automaton`, `Symmetry`, `Components`, `Corridors`, `Neighbours`,
  `Generator`: map generation.
- `Registry`: the unit registry.
- `State`: the game record and its consistency invariant.
- `Territory`, `Ledger`, `Turn`: the start of a turn.
- `Actions`: the action handlers.
- `View` and `Scores`: the read side.

## Model

Source paths are relative to the repository root.

| member | source | states |
|---|---|---|
| Grid.Mirror | src/main/java/com/codingame/antiyoy/GameState.java:44 | the symmetric cell of an on-board cell is on the board, and the two cells' coordinates add up to n-1 on both axes |
| Grid.GetValue | src/main/java/com/codingame/antiyoy/GameState.java:76-81 | any position off the board reads as NEUTRAL; a position on the board reads as its cell's owner |
| Automaton.Neighbourhood | src/main/java/com/codingame/antiyoy/GameState.java:85-94 | the window holds the nine values around the cell, the cell itself in the centre, column by column (x outer, y inner), with positions off the board read as NEUTRAL |
| Automaton.UpdateMap | src/main/java/com/codingame/antiyoy/GameState.java:98-129 | after one double-buffered step, every cell is VOID or NEUTRAL. A cell is NEUTRAL exactly when at least `t` values of its window were NEUTRAL in the board before the step |
| Automaton.CornerWindowMostlyNeutral | src/main/java/com/codingame/antiyoy/GameState.java:76-94 | since off-board positions count as NEUTRAL, each of the four corner cells sees at least five NEUTRAL values on any board |
| Automaton.InvertOwner | src/main/java/com/codingame/antiyoy/GameState.java:262-270 | the arithmetic inversion `((code+2+1)%2)-2` always yields a terrain value |
| Automaton.InvertOwnerSwaps | src/main/java/com/codingame/antiyoy/GameState.java:262-270 | the inversion turns VOID into NEUTRAL and NEUTRAL into VOID, and is its own inverse on terrain |
| Automaton.InvertSwapsTerrain | src/main/java/com/codingame/antiyoy/GameState.java:262-270 | on a terrain board a cell is NEUTRAL after the pass exactly when it was VOID before, and applying the pass twice gives the board back |
| Automaton.InvertKeepsSymmetry | src/main/java/com/codingame/antiyoy/GameState.java:262-270 | the inversion keeps a point-symmetric board point-symmetric |
| Symmetry.ForceOrigin | src/main/java/com/codingame/antiyoy/GameState.java:250-253 | the 2x2 block at the origin is NEUTRAL and every other cell keeps its value |
| Symmetry.Symmetrize | src/main/java/com/codingame/antiyoy/GameState.java:274-278 | the copy loop leaves a point-symmetric board. It keeps the half strictly below the diagonal, overwrites the half above it with its mirror, and settles each diagonal pair by the cell the loop reaches first |
| Symmetry.CornerBlocks | src/main/java/com/codingame/antiyoy/GameState.java:281-286 | for every i, j below 3, cell (i, j) and its symmetric cell end up NEUTRAL, and any cell that changed is one of those |
| Symmetry.WritePair | src/main/java/com/codingame/antiyoy/GameState.java:283-284 | one step of the loop makes cell (i, j) and its symmetric cell NEUTRAL, and keeps every cell already NEUTRAL so |
| Symmetry.CornerBlocksShape | src/main/java/com/codingame/antiyoy/GameState.java:281-286 | after the pass, exactly the 3x3 origin block and its mirror block are NEUTRAL, and every other cell is as before |
| Symmetry.CornerBlocksKeepSymmetry | src/main/java/com/codingame/antiyoy/GameState.java:281-286 | the two corner blocks mirror each other, so a board shaped by the corner pass keeps a symmetric terrain board symmetric and terrain |
| Components.NotEnteredIsMarked | src/main/java/com/codingame/antiyoy/GameState.java:132-138 | a NEUTRAL position that `not_visited` rejects has already been marked in the visited copy |
| Components.Dfs | src/main/java/com/codingame/antiyoy/GameState.java:140-154 | the search appends exactly the cells it marks, each once, starting with its start cell. Every appended cell is joined to the start by a NEUTRAL path. When it returns, every NEUTRAL neighbour of an appended cell is marked |
| Components.FindConnectedComponents | src/main/java/com/codingame/antiyoy/GameState.java:156-187 | the lists partition the NEUTRAL cells: each NEUTRAL cell is in exactly one list and nothing else is in any, and no list repeats a cell. Two cells share a list exactly when a NEUTRAL path joins them |
| Components.SingleComponent | src/main/java/com/codingame/antiyoy/GameState.java:193-195 | when the board has a NEUTRAL cell and every two NEUTRAL cells are joined, every component partition has exactly one list |
| Corridors.Representatives | src/main/java/com/codingame/antiyoy/GameState.java:198-205 | one cell is drawn per component, and it belongs to that component |
| Corridors.LinkComponents | src/main/java/com/codingame/antiyoy/GameState.java:190-235 | the returned lists partition the NEUTRAL cells into their connected components. With exactly one, nothing is drawn and the board is unchanged; otherwise one cell is drawn per component with `pick`, and the board is the carved board for those cells. Carving only turns cells NEUTRAL, so NEUTRAL cells stay NEUTRAL. Each pair's row run, column run and their mirrors become NEUTRAL, and any changed cell lies on some corridor or its mirror. The drawn cells come from distinct components. A symmetric terrain board stays symmetric terrain, and on a symmetric board every two NEUTRAL cells end up joined |
| Corridors.CorridorsNeutral | src/main/java/com/codingame/antiyoy/GameState.java:219-229 | after carving, every cell of every pairwise corridor and its mirror is NEUTRAL |
| Corridors.CarvePreservesSymmetry | src/main/java/com/codingame/antiyoy/GameState.java:221-229 | each corridor write is paired with the write at its mirror, so carving keeps a symmetric terrain board symmetric and terrain |
| Corridors.CarveJoinsAll | src/main/java/com/codingame/antiyoy/GameState.java:190-235 | on a symmetric board, after carving every NEUTRAL cell is joined to every other one |
| Neighbours.CellLinks | src/main/java/com/codingame/antiyoy/GameState.java:53-66 | a cell links to a position exactly when that position is adjacent, on the board and not VOID. There are at most four links and none repeats |
| Neighbours.ComputeNeighbours | src/main/java/com/codingame/antiyoy/GameState.java:53-66 | every cell of the board gets a link list, and each list holds exactly its adjacent non-VOID cells |
| Neighbours.LinksSymmetric | src/main/java/com/codingame/antiyoy/GameState.java:49-66 | between two non-VOID cells a link goes one way exactly when it goes the other |
| Neighbours.LinksStayInside | src/main/java/com/codingame/antiyoy/GameState.java:49-66 | no link leads off the board or into a VOID cell |
| Generator.ShapeTerrain | src/main/java/com/codingame/antiyoy/GameState.java:238-286 | before carving the board is terrain and point-symmetric, and both 3x3 corner blocks are NEUTRAL |
| Generator.GenerateMap | src/main/java/com/codingame/antiyoy/GameState.java:238-294 | the generated board is terrain and point-symmetric, and its corner blocks, where the HQs go, are NEUTRAL. Every two NEUTRAL cells are joined, so any component partition has exactly one list. The links are those of the final board |
| Registry.GetUnit | src/main/java/com/codingame/antiyoy/GameState.java:38 | the unit registered under an id, carrying that id; nothing (`null`) exactly when no unit has the id |
| Registry.Remove | src/main/java/com/codingame/antiyoy/GameState.java:325 | after `remove(id)` nothing is registered under `id`, and every other entry stays |
| Registry.Put | src/main/java/com/codingame/antiyoy/GameState.java:432 | after `put`, looking up the new unit's id finds the new unit. Other ids keep their entries and ids stay distinct |
| Registry.Filter | src/main/java/com/codingame/antiyoy/GameState.java:341-343 | removing a collected list of units keeps exactly the units not selected, with ids still distinct |
| Registry.SumPermutation | src/main/java/com/codingame/antiyoy/GameState.java:410-414 | a sum over the registry does not depend on the registry's iteration order |
| Registry.SumFilter | src/main/java/com/codingame/antiyoy/GameState.java:389-393 | dropping units that weigh nothing leaves a sum over the registry unchanged |
| State.NewGame | src/main/java/com/codingame/antiyoy/GameState.java:22-33 | a fresh game is consistent, with no units, buildings or HQs. Every cell keeps its terrain and is inactive with no unit or building, and each player starts with twice the cost of a level-1 unit |
| Territory.ComputeActiveCells | src/main/java/com/codingame/antiyoy/GameState.java:361-386 | afterwards a cell is active exactly when a walk along links through the player's own cells reaches it from the HQ, or when it is not the player's and was active before. Only active flags change. The queue order holds every reachable cell exactly once, the HQ first |
| Territory.StartBoard | src/main/java/com/codingame/antiyoy/GameState.java:362-373 | before the search every cell the player owns is inactive except the HQ cell, and nothing but active flags has changed |
| Ledger.CellIncome | src/main/java/com/codingame/antiyoy/GameState.java:396-402 | scanning column by column adds the cell income once per active cell of the player, counted as a set of positions |
| Ledger.MineIncome | src/main/java/com/codingame/antiyoy/GameState.java:404-408 | adds the mine income once per mine of the player on an active cell. HQs are not in the building list and never count |
| Ledger.PayUpkeep | src/main/java/com/codingame/antiyoy/GameState.java:410-414 | subtracts the upkeep of every live unit of the player once |
| Ledger.ComputeGold | src/main/java/com/codingame/antiyoy/GameState.java:395-415 | the player's counter changes by exactly cell income times active cells, plus mine income times active mines, minus upkeep. Nothing else in the game changes |
| Ledger.DeltaOrderIndependent | src/main/java/com/codingame/antiyoy/GameState.java:410-414 | two registries holding the same units, in any order, give the same change of gold |
| Turn.KillSeparatedUnits | src/main/java/com/codingame/antiyoy/GameState.java:389-393 | exactly the live units of the player standing on inactive cells leave the registry, and no such unit remains |
| Turn.NegativeGoldWipeout | src/main/java/com/codingame/antiyoy/GameState.java:417-424 | the player's gold becomes 0 and exactly the player's live units leave the registry. Other gold and the board are untouched |
| Turn.InitTurn | src/main/java/com/codingame/antiyoy/GameState.java:346-354 | the active flags are the reachability result, and no live unit of the player stands on an inactive cell. The new gold is the old gold plus the delta earned with the surviving units; if that total is negative, the gold is 0 and the army is gone. The player's gold is never negative afterwards, other players' gold and units are untouched, and consistency is kept |
| Turn.TurnKeepsConsistent | src/main/java/com/codingame/antiyoy/GameState.java:346-354 | changing only active flags and gold values and dropping units keeps the consistency invariant |
| Actions.KillUnit | src/main/java/com/codingame/antiyoy/GameState.java:322-326 | the unit leaves the registry and nothing else changes. In particular its cell still references it |
| Actions.DropAt | src/main/java/com/codingame/antiyoy/GameState.java:336 | keeps exactly the buildings whose coordinates differ from the given ones |
| Actions.DropAtCounts | src/main/java/com/codingame/antiyoy/GameState.java:336 | every building not at the given coordinates stays in the list as often as it occurred, and none at them remains |
| Actions.DropAtAppend | src/main/java/com/codingame/antiyoy/GameState.java:336 | the kept buildings stay in list order: dropping from a concatenation drops from each part |
| Actions.ClearCell | src/main/java/com/codingame/antiyoy/GameState.java:328-339 | the cell loses its unit and building references and keeps its owner and active flag. The referenced unit leaves the registry, and every building at the referenced building's coordinates leaves the list. Nothing else changes |
| Actions.AddUnit | src/main/java/com/codingame/antiyoy/GameState.java:427-436 | the target cell becomes the unit owner's, holding the new unit and no building. Its previous unit and building are gone, the unit is registered under its id, and its owner pays its cost with no balance check |
| Actions.MoveUnit | src/main/java/com/codingame/antiyoy/GameState.java:438-452 | the old cell is emptied, and the target becomes the mover's with the unit on it and no building. Whatever stood on the target is evicted, the registered unit now stands on the target, and no gold moves. A unit whose own id the target referenced is killed by the clearing and not put back |
| Actions.AddBuilding | src/main/java/com/codingame/antiyoy/GameState.java:454-458 | the building is appended and attached to its cell, and its price is debited with no balance check and no eviction |
| Actions.CreateHqs | src/main/java/com/codingame/antiyoy/GameState.java:303-315 | fails exactly when the player count is not 2. Otherwise the HQs of players 0 and 1 are appended at the two opposite corners and those cells given to them, keeping their active flag, unit and building; the HQs stay out of the building list and every other cell is unchanged |
| Actions.ClearCellCounts | src/main/java/com/codingame/antiyoy/GameState.java:328-339 | clearing a cell removes every building at the evicted coordinates and keeps each other building with its multiplicity |
| Actions.AddUnitCounts | src/main/java/com/codingame/antiyoy/GameState.java:427-436 | training removes the buildings at the target's evicted coordinates and keeps each other building with its multiplicity |
| Actions.MoveUnitCounts | src/main/java/com/codingame/antiyoy/GameState.java:438-452 | moving removes the buildings at the target's evicted coordinates and keeps each other building with its multiplicity |
| Actions.ClearCellKeepsConsistent | src/main/java/com/codingame/antiyoy/GameState.java:328-339 | clearing a cell keeps the consistency invariant |
| Actions.AddUnitKeepsConsistent | src/main/java/com/codingame/antiyoy/GameState.java:427-436 | training a unit that fits the tables keeps the consistency invariant and removes any other unit that stood on the target |
| Actions.MoveUnitKeepsConsistent | src/main/java/com/codingame/antiyoy/GameState.java:438-452 | moving a registered unit to another cell keeps the consistency invariant |
| Actions.AddBuildingKeepsConsistent | src/main/java/com/codingame/antiyoy/GameState.java:454-458 | adding a building on a cell of the board keeps the consistency invariant |
| Actions.CreateHqsKeepsConsistent | src/main/java/com/codingame/antiyoy/GameState.java:303-315 | with two players and no units, placing the HQs succeeds and keeps the consistency invariant |
| View.CellChar | src/main/java/com/codingame/antiyoy/GameState.java:466-486 | the character of a cell reads back as exactly what the viewer may know about it: wall, free ground, or the viewer's or an opponent's cell together with its active flag |
| View.CellCharFaithful | src/main/java/com/codingame/antiyoy/GameState.java:466-486 | two cells get the same character exactly when the viewer cannot tell them apart |
| View.MapRows | src/main/java/com/codingame/antiyoy/GameState.java:462-491 | one line per row y, each n characters long; its x-th character decodes to what the viewer sees at (x, y) |
| View.RelativeOwner | src/main/java/com/codingame/antiyoy/GameState.java:502 | for an owner and viewer in range, the relative owner lies in [0, count) |
| View.RelativeOwnerValue | src/main/java/com/codingame/antiyoy/GameState.java:523 | the relative owner is how many seats after the viewer the owner sits, going round the table |
| View.RelativeOwnerProperties | src/main/java/com/codingame/antiyoy/GameState.java:536 | the relative owner is 0 exactly for the viewer's own things. Adding the viewer back modulo the count gives the owner, and distinct owners stay distinct |
| Scores.AddUnitCosts | src/main/java/com/codingame/antiyoy/GameState.java:561-563 | each player's entry grows by exactly the cost of every registered unit that player owns, alive or not |
| Scores.ScoresOrderIndependent | src/main/java/com/codingame/antiyoy/GameState.java:561-563 | two registries holding the same units, in any order, give the same scores |
| Scores.WipeoutKeepsOtherScores | src/main/java/com/codingame/antiyoy/GameState.java:417-424 | wiping out one player's army leaves every other player's score unchanged |
| Scores.SeparationKeepsOtherScores | src/main/java/com/codingame/antiyoy/GameState.java:389-393 | killing one player's separated units leaves every other player's score unchanged |
| Scores.GetScores | src/main/java/com/codingame/antiyoy/GameState.java:559-565 | each score is the gold before the call plus the worth of the player's registered units, and the game's gold afterwards equals those scores, because the list shares the counters |
| Scores.ScoresCountTwice | src/main/java/com/codingame/antiyoy/GameState.java:559-565 | reading the aliased scores twice counts every unit twice |
| Scores.ScoresDriftExample | src/main/java/com/codingame/antiyoy/GameState.java:560 | a one-player game with 10 gold and a unit costing 10 scores 20 and then 30 |
| Scores.GetScoresCopy | src/main/java/com/codingame/antiyoy/GameState.java:560 | with a real copy, the scores are the same and the game is left unchanged |

## Left out

- Randomness: `java.util.Random`, the `nextFloat() > MAPGENERATOR_R` comparison and `nextInt` are not modelled. The initial fill and the per-component draw are inputs, so seed determinism is not covered.
- Line emission is not modelled. This covers `sendState` and the `sendInputLine` calls of `sendMap`, `sendUnits` and `sendBuildings`. Only the per-cell character and the relative owner index are modelled.
- `System.err` logging and `debugViews` are left out because they have no effect on the state.
- `AtomicInteger`: gold is a plain integer. Concurrency is not part of the core.
- Gold: the model does not wrap around at 32 bits. The source's `int` counters could only overflow after an unrealistic number of turns.
- The hooks `unit.die()`, `doDispose()`, `unit.moved()` and `unit.newTurn()` are left out: they belong to `Unit`, `Building` and the view, which are not part of this model. For this reason `InitTurn` ends before the final `newTurn` loop, and `MoveUnit` does not mark the unit as moved.
- `Cell`, `Unit`, `Building`, `Constants` and the view classes are not part of this model. This has two effects:
  - Constants are parameters: the board size, the automaton threshold and iteration count, incomes, costs and the player count.
  - A new cell is taken to be inactive with no unit or building.
- Grid.Code: the integer codes VOID = -2 and NEUTRAL = -1 are assumed, because the constants class is not part of this model. `Automaton.InvertOwner` rests on them. The arithmetic `((code+2+1)%2)-2` sends -2 to -1 and -1 to -2, so it swaps VOID and NEUTRAL under either assignment of the two codes.
- Map shape: a square n x n board is assumed. The symmetry loop only covers the board when width equals height.
- Registry order: the unit registry is a sequence with distinct ids rather than a `HashMap`. Its order stands for the map's iteration order. The sums over it are shown to be order-independent (`Registry.SumPermutation`, used by `Ledger.DeltaOrderIndependent` and `Scores.ScoresOrderIndependent`). Lookups (`Registry.GetUnit`) and filters (`Registry.Filter`) rely on distinct ids (`Registry.DistinctIds`) instead, so that at most one entry answers to an id.
- `computeAllActiveCells` is not modelled separately; it is `ComputeActiveCells` run for each player in turn.
- `getCell`, `getGold`, `getHQs` and the other accessors are plain field reads and are not modelled separately.
- Actions.AddUnit: requires that unit ids in the registry be distinct. The source's `HashMap` keeps this by construction.
- Actions.MoveUnit: requires the target to differ from the unit's cell. The source would kill the moving unit when clearing its own cell.
- Actions.MoveUnit: requires the moving unit to be registered, and takes it by id. The source's `moveUnit` accepts any `Unit` object without checking the registry, but its callers only pass units taken from the registry.
- Actions.CreateHqs: states that the HQ cells keep their building reference, taking the HQ as not attached to its cell. Whether `new Building(cell, ...)` attaches itself to its cell is decided by the `Building` constructor, which is not part of this model; the model assumes it does not.
- Actions.CreateHqsKeepsConsistent: proved only for a game without units, as right after map generation. An HQ cell changes owner, which would break the owner invariant of a unit already standing there.
- Generator.GenerateMap: requires n >= 3 so that the 3x3 corner blocks fit on the board.

## Findings

| source | as written | input that shows it | evidently intended | confidence | as-written member | corrected member |
|---|---|---|---|---|---|---|
| src/main/java/com/codingame/antiyoy/GameState.java:560 | `new ArrayList<>(this.playerGolds)` copies references to the same `AtomicInteger` counters. Adding unit costs to the scores therefore also adds them to each player's stored gold | one player with 10 gold and one registered level-1 unit costing 10: the first call returns 20 and leaves 20 gold; a second call returns 30 | a score snapshot computed from a copy of the gold values, leaving the ledger unchanged | medium, not executed; it shows only if scores are read more than once or gold is read after scoring | Scores.GetScores, Scores.ScoresDriftExample | Scores.GetScoresCopy |

=== FILE: actions.dfy ===
/**
  The action handlers: eviction (`clearCell`, `killUnit`), training
  (`addUnit`), moving (`moveUnit`), building (`addBuilding`) and the HQ
  setup (`createHQs`).
 */
module Actions {
  import opened Grid
  import opened Registry
  import opened State

  datatype Result<T> = Success(value: T) | Failure(message: string)

  /** The buildings of `bs` not standing at `pos`, in order (`removeIf` on
      the coordinates): every other entry is kept as often as it occurs. */
  function DropAt(bs: seq<Building>, pos: Pos): (r: seq<Building>)
    ensures forall b :: b in r <==> b in bs && b.pos != pos
    ensures |r| <= |bs|
  {
    if bs == [] then []
    else (if bs[0].pos != pos then [bs[0]] else []) + DropAt(bs[1..], pos)
  }

  /** Dropping keeps every other building as often as it occurs in the
      list, and no building at `pos`. */
  lemma {:induction false} DropAtCounts(bs: seq<Building>, pos: Pos, b: Building)
    ensures multiset(DropAt(bs, pos))[b] == if b.pos != pos then multiset(bs)[b] else 0
    decreases |bs|
  {
    if bs != [] {
      DropAtCounts(bs[1..], pos, b);
      assert bs == [bs[0]] + bs[1..];
    }
  }

  /** Dropping keeps the order of the list: it works piece by piece, so the
      kept entries of a prefix come before those of the rest. */
  lemma {:induction false} DropAtAppend(a: seq<Building>, b: seq<Building>, pos: Pos)
    ensures DropAt(a + b, pos) == DropAt(a, pos) + DropAt(b, pos)
    decreases |a|
  {
    if a != [] {
      assert (a + b)[1..] == a[1..] + b;
      DropAtAppend(a[1..], b, pos);
    } else {
      assert a + b == b;
    }
  }

  /** `killUnit`: the unit leaves the registry, but the cell it stood on
      still references it. */
  function KillUnit(s: Game, id: int): (r: Game)
    ensures r == s.(units := r.units)
    ensures !Registered(r.units, id)
    ensures forall v :: v in r.units <==> v in s.units && v.id != id
    ensures DistinctIds(s.units) ==> DistinctIds(r.units)
  {
    s.(units := Remove(s.units, id))
  }

  /** The buildings a cleared cell evicts: those at the position of the
      building the cell references. */
  predicate Evicted(c: Cell, b: Building)
  {
    c.building.Some? && b.pos == c.building.value.pos
  }

  /** `clearCell`: kills the unit the cell references, if any, and evicts
      the building it references, if any; the cell then references neither.
      The owner and active flag of the cell, every other cell, the HQs and
      the gold are unchanged. */
  function ClearCell(s: Game, pos: Pos): (r: Game)
    requires pos in s.cells
    ensures r == s.(cells := r.cells, units := r.units, buildings := r.buildings)
    ensures r.cells == s.cells[pos := s.cells[pos].(unit := None, building := None)]
    ensures forall v :: v in r.units <==> v in s.units && s.cells[pos].unit != Some(v.id)
    ensures forall b :: b in r.buildings <==> b in s.buildings && !Evicted(s.cells[pos], b)
    ensures DistinctIds(s.units) ==> DistinctIds(r.units)
  {
    var c := s.cells[pos];
    var s1 := if c.unit.Some? then KillUnit(s, c.unit.value).(cells := s.cells[pos := c.(unit := None)]) else s;
    if c.building.Some? then
      s1.(buildings := DropAt(s1.buildings, c.building.value.pos), cells := s1.cells[pos := s1.cells[pos].(building := None)])
    else s1
  }

  /** `addUnit` (train): clears the target cell, registers the unit, gives
      the cell to the unit's owner with the unit on it, and debits the
      unit's cost from its owner without checking the balance. */
  function AddUnit(rules: Rules, s: Game, u: Unit): (r: Game)
    requires u.pos in s.cells && u.owner < |s.gold| && u.level < |rules.unitCost|
    requires DistinctIds(s.units)
    ensures r.n == s.n && r.links == s.links && r.hqs == s.hqs
    ensures r.cells == s.cells[u.pos := Cell(Player(u.owner), s.cells[u.pos].active, Some(u.id), None)]
    ensures Registered(r.units, u.id) && Lookup(r.units, u.id) == u
    ensures forall v :: v in r.units <==> v == u || (v in s.units && v.id != u.id && s.cells[u.pos].unit != Some(v.id))
    ensures forall b :: b in r.buildings <==> b in s.buildings && !Evicted(s.cells[u.pos], b)
    ensures r.gold == s.gold[u.owner := s.gold[u.owner] - rules.unitCost[u.level]]
    ensures DistinctIds(r.units)
  {
    var s1 := ClearCell(s, u.pos);
    s1.(units := Put(s1.units, u),
        cells := s1.cells[u.pos := s1.cells[u.pos].(owner := Player(u.owner), unit := Some(u.id))],
        gold := s1.gold[u.owner := s1.gold[u.owner] - rules.unitCost[u.level]])
  }

  /** `moveUnit`: clears the target cell, empties the unit's old cell,
      moves the unit and gives the target to the unit's owner with the unit
      on it. No gold changes hands. If the target referenced the moving unit
      itself, clearing it killed the unit, and the moved unit is not put
      back into the registry. */
  function MoveUnit(s: Game, id: int, target: Pos): (r: Game)
    requires DistinctIds(s.units) && Registered(s.units, id)
    requires target in s.cells && Lookup(s.units, id).pos in s.cells
    requires target != Lookup(s.units, id).pos
    ensures var u := Lookup(s.units, id);
            r.cells == s.cells[u.pos := s.cells[u.pos].(unit := None)]
                              [target := s.cells[target].(owner := Player(u.owner), unit := Some(id), building := None)]
    ensures r.n == s.n && r.links == s.links && r.hqs == s.hqs && r.gold == s.gold
    ensures forall b :: b in r.buildings <==> b in s.buildings && !Evicted(s.cells[target], b)
    ensures var u := Lookup(s.units, id);
            s.cells[target].unit != Some(id) ==>
              && Registered(r.units, id) && Lookup(r.units, id) == u.(pos := target)
              && forall v :: v in r.units <==> v == u.(pos := target) || (v in s.units && v.id != id && s.cells[target].unit != Some(v.id))
    ensures s.cells[target].unit == Some(id) ==>
              !Registered(r.units, id) && forall v :: v in r.units <==> v in s.units && v.id != id
    ensures DistinctIds(r.units)
  {
    var u := Lookup(s.units, id);
    var s1 := ClearCell(s, target);
    var cells := s1.cells[u.pos := s1.cells[u.pos].(unit := None)];
    var moved := u.(pos := target);
    s1.(cells := cells[target := cells[target].(owner := Player(u.owner), unit := Some(id))],
        units := if Registered(s1.units, id) then Put(s1.units, moved) else s1.units)
  }

  /** `addBuilding`: appends the building, attaches it to its cell and
      debits its price from its owner, without evicting anything and
      without checking the balance. */
  function AddBuilding(rules: Rules, s: Game, b: Building): (r: Game)
    requires b.pos in s.cells && b.owner < |s.gold|
    ensures r.units == s.units && r.hqs == s.hqs && r.n == s.n && r.links == s.links
    ensures r.buildings == s.buildings + [b]
    ensures r.cells == s.cells[b.pos := s.cells[b.pos].(building := Some(b))]
    ensures r.gold == s.gold[b.owner := s.gold[b.owner] - rules.buildingCost(b.kind)]
  {
    s.(buildings := s.buildings + [b],
       cells := s.cells[b.pos := s.cells[b.pos].(building := Some(b))],
       gold := s.gold[b.owner := s.gold[b.owner] - rules.buildingCost(b.kind)])
  }

  /** `createHQs`: only a two-player game is supported. The HQ of player 0
      is placed at (0, 0) and that of player 1 at the opposite corner; each
      HQ cell is given to its player and otherwise keeps its active flag,
      unit and building. The HQs are not part of the building list; the
      `Building` constructor is not part of this model, and the HQs are
      taken not to attach themselves to their cells. */
  function CreateHqs(s: Game, playersCount: int): (r: Result<Game>)
    requires IsBoard(s) && s.n >= 1
    ensures r.Failure? <==> playersCount != 2
    ensures r.Success? ==>
      && r.value.hqs == s.hqs + [Building(0, Hq, Pos(0, 0)), Building(1, Hq, Pos(s.n - 1, s.n - 1))]
      && r.value.cells.Keys == s.cells.Keys
      && r.value.cells[Pos(s.n - 1, s.n - 1)] == s.cells[Pos(s.n - 1, s.n - 1)].(owner := Player(1))
      && (s.n > 1 ==> r.value.cells[Pos(0, 0)] == s.cells[Pos(0, 0)].(owner := Player(0)))
      && (forall c :: c in s.cells && c != Pos(0, 0) && c != Pos(s.n - 1, s.n - 1) ==> r.value.cells[c] == s.cells[c])
      && r.value == s.(cells := r.value.cells, hqs := r.value.hqs)
  {
    if playersCount != 2 then Failure("More than 2 players mode not implemented")
    else
      var hq0 := Building(0, Hq, Pos(0, 0));
      var hq1 := Building(1, Hq, Pos(s.n - 1, s.n - 1));
      var cells := s.cells[hq0.pos := s.cells[hq0.pos].(owner := Player(0))];
      Success(s.(hqs := s.hqs + [hq0, hq1], cells := cells[hq1.pos := cells[hq1.pos].(owner := Player(1))]))
  }

  /** `clearCell` removes every building at the evicted position, and only
      those: any other building stays in the list as often as it was there. */
  lemma ClearCellCounts(s: Game, pos: Pos, b: Building)
    requires pos in s.cells
    ensures multiset(ClearCell(s, pos).buildings)[b] == if Evicted(s.cells[pos], b) then 0 else multiset(s.buildings)[b]
  {
    if s.cells[pos].building.Some? {
      DropAtCounts(s.buildings, s.cells[pos].building.value.pos, b);
    }
  }

  /** Training evicts buildings as `clearCell` does and keeps the others
      with their multiplicity. */
  lemma AddUnitCounts(rules: Rules, s: Game, u: Unit, b: Building)
    requires u.pos in s.cells && u.owner < |s.gold| && u.level < |rules.unitCost|
    requires DistinctIds(s.units)
    ensures multiset(AddUnit(rules, s, u).buildings)[b] == if Evicted(s.cells[u.pos], b) then 0 else multiset(s.buildings)[b]
  {
    ClearCellCounts(s, u.pos, b);
  }

  /** Moving evicts buildings from the target as `clearCell` does and keeps
      the others with their multiplicity. */
  lemma MoveUnitCounts(s: Game, id: int, target: Pos, b: Building)
    requires DistinctIds(s.units) && Registered(s.units, id)
    requires target in s.cells && Lookup(s.units, id).pos in s.cells
    requires target != Lookup(s.units, id).pos
    ensures multiset(MoveUnit(s, id, target).buildings)[b] == if Evicted(s.cells[target], b) then 0 else multiset(s.buildings)[b]
  {
    ClearCellCounts(s, target, b);
  }

  /** Clearing a cell keeps the consistency invariant. */
  lemma ClearCellKeepsConsistent(rules: Rules, s: Game, pos: Pos)
    requires Consistent(rules, s) && pos in s.cells
    ensures Consistent(rules, ClearCell(s, pos))
  {
    var r := ClearCell(s, pos);
    forall v | v in r.units
      ensures UnitFits(rules, r, v)
      ensures r.cells[v.pos].unit == Some(v.id) && r.cells[v.pos].owner == Player(v.owner)
    {
      assert v.pos != pos;
    }
  }

  /** Training a unit that fits the tables and the board keeps the
      consistency invariant; in particular the unit that stood on the
      target, if any, is gone from the registry. */
  lemma AddUnitKeepsConsistent(rules: Rules, s: Game, u: Unit)
    requires Consistent(rules, s) && UnitFits(rules, s, u)
    ensures Consistent(rules, AddUnit(rules, s, u))
    ensures forall v :: v in s.units && v.pos == u.pos && v != u ==> v !in AddUnit(rules, s, u).units
  {
    var r := AddUnit(rules, s, u);
    forall v | v in r.units
      ensures UnitFits(rules, r, v)
      ensures r.cells[v.pos].unit == Some(v.id) && r.cells[v.pos].owner == Player(v.owner)
    {
      if v != u {
        assert v.pos != u.pos;
      }
    }
  }

  /** Moving a registered unit to another cell keeps the consistency
      invariant. */
  lemma MoveUnitKeepsConsistent(rules: Rules, s: Game, id: int, target: Pos)
    requires Consistent(rules, s) && Registered(s.units, id)
    requires target in s.cells && target != Lookup(s.units, id).pos
    ensures Consistent(rules, MoveUnit(s, id, target))
  {
    var r := MoveUnit(s, id, target);
    MoveUnitPlacesUnits(rules, s, id, target);
    MoveUnitKeepsBuildings(s, id, target);
    FrameKeepsConsistent(rules, s, r);
  }

  /** A move leaves only buildings that were there, and every cell's
      building still stands on that cell. */
  lemma MoveUnitKeepsBuildings(s: Game, id: int, target: Pos)
    requires DistinctIds(s.units) && Registered(s.units, id)
    requires target in s.cells && Lookup(s.units, id).pos in s.cells
    requires target != Lookup(s.units, id).pos
    requires forall c :: c in s.cells && s.cells[c].building.Some? ==> s.cells[c].building.value.pos == c
    ensures var r := MoveUnit(s, id, target);
            && (forall b :: b in r.buildings ==> b in s.buildings)
            && (forall c :: c in r.cells && r.cells[c].building.Some? ==> r.cells[c].building.value.pos == c)
  {
    var r := MoveUnit(s, id, target);
    forall c | c in r.cells && r.cells[c].building.Some?
      ensures r.cells[c].building.value.pos == c
    {
      assert c != target;
      assert r.cells[c].building == s.cells[c].building;
    }
  }

  /** A game that keeps the board, links, HQs and gold table of a
      consistent game, only loses buildings, keeps cell buildings in place
      and places its units keeps the consistency invariant. */
  lemma FrameKeepsConsistent(rules: Rules, s: Game, r: Game)
    requires Consistent(rules, s)
    requires r.n == s.n && r.links == s.links && r.cells.Keys == s.cells.Keys && r.hqs == s.hqs && |r.gold| == |s.gold|
    requires DistinctIds(r.units)
    requires forall v :: v in r.units ==>
               && UnitFits(rules, r, v)
               && r.cells[v.pos].unit == Some(v.id) && r.cells[v.pos].owner == Player(v.owner)
    requires forall b :: b in r.buildings ==> b in s.buildings
    requires forall c :: c in r.cells && r.cells[c].building.Some? ==> r.cells[c].building.value.pos == c
    ensures Consistent(rules, r)
  {
    forall b | b in r.buildings
      ensures BuildingFits(r, b)
    {
      assert BuildingFits(s, b);
    }
  }

  /** After a move every registered unit fits and stands on a cell of its
      owner that references it. */
  lemma MoveUnitPlacesUnits(rules: Rules, s: Game, id: int, target: Pos)
    requires Consistent(rules, s) && Registered(s.units, id)
    requires target in s.cells && target != Lookup(s.units, id).pos
    ensures var r := MoveUnit(s, id, target);
            forall v :: v in r.units ==>
              && UnitFits(rules, r, v)
              && r.cells[v.pos].unit == Some(v.id) && r.cells[v.pos].owner == Player(v.owner)
  {
    var u := Lookup(s.units, id);
    var r := MoveUnit(s, id, target);
    forall v | v in r.units
      ensures UnitFits(rules, r, v)
      ensures r.cells[v.pos].unit == Some(v.id) && r.cells[v.pos].owner == Player(v.owner)
    {
      if v != u.(pos := target) {
        assert v in s.units && v.id != id;
        assert v.pos != target && v.pos != u.pos;
      }
    }
  }

  /** Adding a building on a cell of the board keeps the consistency
      invariant. */
  lemma AddBuildingKeepsConsistent(rules: Rules, s: Game, b: Building)
    requires Consistent(rules, s) && BuildingFits(s, b)
    ensures Consistent(rules, AddBuilding(rules, s, b))
  {
  }

  /** Placing the HQs on a board without units keeps the consistency
      invariant. */
  lemma CreateHqsKeepsConsistent(rules: Rules, s: Game)
    requires Consistent(rules, s) && s.n >= 1 && s.units == [] && |s.gold| >= 2
    ensures CreateHqs(s, 2).Success? && Consistent(rules, CreateHqs(s, 2).value)
  {
  }
}

=== FILE: automaton.dfy ===
/**
  The cellular-automaton step of the map generator and the VOID/NEUTRAL
  inversion that follows it.
 */
module Automaton {
  import opened Grid

  /** The nine values of the 3x3 window centred on `p`, the cell itself
      included, column by column (`getNeighbourhood`). */
  function Neighbourhood(n: nat, g: map<Pos, Owner>, p: Pos): (w: seq<Owner>)
    requires IsGrid(n, g)
    ensures |w| == 9
    ensures w[4] == GetValue(n, g, p)
    ensures forall i :: 0 <= i < 9 ==> w[i] == GetValue(n, g, Pos(p.x + i / 3 - 1, p.y + i % 3 - 1))
  {
    [ GetValue(n, g, Pos(p.x - 1, p.y - 1)), GetValue(n, g, Pos(p.x - 1, p.y)), GetValue(n, g, Pos(p.x - 1, p.y + 1)),
      GetValue(n, g, Pos(p.x, p.y - 1)),     GetValue(n, g, Pos(p.x, p.y)),     GetValue(n, g, Pos(p.x, p.y + 1)),
      GetValue(n, g, Pos(p.x + 1, p.y - 1)), GetValue(n, g, Pos(p.x + 1, p.y)), GetValue(n, g, Pos(p.x + 1, p.y + 1)) ]
  }

  /** How many entries of `s` equal `v` (`Collections.frequency`). */
  function Frequency(s: seq<Owner>, v: Owner): (k: nat)
    ensures k <= |s|
    ensures k == 0 <==> forall i :: 0 <= i < |s| ==> s[i] != v
  {
    if s == [] then 0 else (if s[0] == v then 1 else 0) + Frequency(s[1..], v)
  }

  /** The rule applied to one cell: NEUTRAL when at least `t` values of its
      window are NEUTRAL, VOID otherwise. */
  function StepCell(n: nat, g: map<Pos, Owner>, t: int, p: Pos): Owner
    requires IsGrid(n, g)
  {
    if Frequency(Neighbourhood(n, g, p), Neutral) >= t then Neutral else Void
  }

  /** One double-buffered automaton step (`updateMap`): every cell of the
      result is computed from the grid as it was before the step, never from
      cells already rewritten in the same step. */
  method UpdateMap(n: nat, g: map<Pos, Owner>, t: int) returns (r: map<Pos, Owner>)
    requires IsGrid(n, g)
    ensures IsGrid(n, r)
    ensures IsTerrain(r)
    ensures forall p :: p in r ==> (r[p] == Neutral <==> Frequency(Neighbourhood(n, g, p), Neutral) >= t)
  {
    ghost var want := map p | p in g :: StepCell(n, g, t, p);
    var next := g;
    var x := 0;
    while x < n
      invariant 0 <= x <= n
      invariant RewrittenUpTo(want, g, next, x, 0)
    {
      next := UpdateColumn(n, g, t, want, next, x);
      x := x + 1;
    }
    r := next;
    assert forall p :: p in r ==> r[p] == want[p];
    StepAll(n, g, t, r);
  }

  /** The buffer holds the target value for every cell before (x, y) in
      column-major order and the source value for the others. */
  ghost predicate RewrittenUpTo(want: map<Pos, Owner>, g: map<Pos, Owner>, buf: map<Pos, Owner>, x: int, y: int)
  {
    && buf.Keys == g.Keys && want.Keys == g.Keys
    && forall p {:trigger buf[p]} :: p in buf ==>
         buf[p] == (if p.x < x || (p.x == x && p.y < y) then want[p] else g[p])
  }

  /** The inner loop of `updateMap`: rewrites column `x` of the buffer from
      the unchanged source board; `want` holds the rule's value of every
      cell. */
  method UpdateColumn(n: nat, g: map<Pos, Owner>, t: int, ghost want: map<Pos, Owner>, buf: map<Pos, Owner>, x: int)
    returns (next: map<Pos, Owner>)
    requires IsGrid(n, g) && 0 <= x < n
    requires forall p :: p in want ==> want[p] == StepCell(n, g, t, p)
    requires RewrittenUpTo(want, g, buf, x, 0)
    ensures RewrittenUpTo(want, g, next, x + 1, 0)
  {
    next := buf;
    var y := 0;
    while y < n
      invariant 0 <= y <= n
      invariant RewrittenUpTo(want, g, next, x, y)
    {
      assert Pos(x, y) in want;
      RewriteStep(want, g, next, x, y);
      next := next[Pos(x, y) := StepCell(n, g, t, Pos(x, y))];
      y := y + 1;
    }
    ColumnDone(n, want, g, next, x);
  }

  lemma RewriteStep(want: map<Pos, Owner>, g: map<Pos, Owner>, buf: map<Pos, Owner>, x: int, y: int)
    requires RewrittenUpTo(want, g, buf, x, y) && Pos(x, y) in g
    ensures RewrittenUpTo(want, g, buf[Pos(x, y) := want[Pos(x, y)]], x, y + 1)
  {
    var next := buf[Pos(x, y) := want[Pos(x, y)]];
    forall p | p in next
      ensures next[p] == (if p.x < x || (p.x == x && p.y < y + 1) then want[p] else g[p])
    {
      if p != Pos(x, y) {
        assert next[p] == buf[p];
      }
    }
  }

  lemma ColumnDone(n: nat, want: map<Pos, Owner>, g: map<Pos, Owner>, buf: map<Pos, Owner>, x: int)
    requires IsGrid(n, g) && 0 <= x
    requires RewrittenUpTo(want, g, buf, x, n)
    ensures RewrittenUpTo(want, g, buf, x + 1, 0)
  {
  }

  /** A board whose every cell follows the rule holds only terrain and is
      NEUTRAL exactly where the rule says. */
  lemma StepAll(n: nat, g: map<Pos, Owner>, t: int, r: map<Pos, Owner>)
    requires IsGrid(n, g) && r.Keys == g.Keys
    requires forall p :: p in r ==> r[p] == StepCell(n, g, t, p)
    ensures IsGrid(n, r) && IsTerrain(r)
    ensures forall p :: p in r ==> (r[p] == Neutral <==> Frequency(Neighbourhood(n, g, p), Neutral) >= t)
  {
  }

  /** Out-of-bounds positions count as NEUTRAL, so each of the four corner
      cells of the board sees at least five NEUTRAL values whatever the
      board holds. */
  lemma CornerWindowMostlyNeutral(n: nat, g: map<Pos, Owner>, p: Pos)
    requires IsGrid(n, g)
    requires (p.x == 0 || p.x == n - 1) && (p.y == 0 || p.y == n - 1)
    ensures Frequency(Neighbourhood(n, g, p), Neutral) >= 5
  {
    var w := Neighbourhood(n, g, p);
    EdgesNeutral(n, g, p);
    if p.x == 0 && p.y == 0 {
      FrequencyAtLeastFive(w, Neutral, 0, 1, 2, 3, 6);
    } else if p.x == 0 {
      FrequencyAtLeastFive(w, Neutral, 0, 1, 2, 5, 8);
    } else if p.y == 0 {
      FrequencyAtLeastFive(w, Neutral, 0, 3, 6, 7, 8);
    } else {
      FrequencyAtLeastFive(w, Neutral, 2, 5, 6, 7, 8);
    }
  }

  /** The window entries that fall off a board edge read NEUTRAL. */
  lemma EdgesNeutral(n: nat, g: map<Pos, Owner>, p: Pos)
    requires IsGrid(n, g)
    ensures var w := Neighbourhood(n, g, p);
            && (p.x == 0 ==> w[0] == Neutral && w[1] == Neutral && w[2] == Neutral)
            && (p.x == n - 1 ==> w[6] == Neutral && w[7] == Neutral && w[8] == Neutral)
            && (p.y == 0 ==> w[0] == Neutral && w[3] == Neutral && w[6] == Neutral)
            && (p.y == n - 1 ==> w[2] == Neutral && w[5] == Neutral && w[8] == Neutral)
  {
  }

  /** Five distinct entries holding `v` make a frequency of at least five. */
  lemma FrequencyAtLeastFive(s: seq<Owner>, v: Owner, a: nat, b: nat, c: nat, d: nat, e: nat)
    requires a < b < c < d < e < |s|
    requires s[a] == v && s[b] == v && s[c] == v && s[d] == v && s[e] == v
    ensures Frequency(s, v) >= 5
  {
    FrequencyAtLeast(s, v, [a, b, c, d, e]);
  }

  /** Frequency counts at least the listed distinct positions holding `v`. */
  lemma {:induction false} FrequencyAtLeast(s: seq<Owner>, v: Owner, idx: seq<nat>)
    requires forall i :: 0 <= i < |idx| ==> idx[i] < |s| && s[idx[i]] == v
    requires forall i, j :: 0 <= i < j < |idx| ==> idx[i] < idx[j]
    ensures Frequency(s, v) >= |idx|
    decreases |s|
  {
    if s != [] {
      var rest := if idx != [] && idx[0] == 0 then idx[1..] else idx;
      assert forall i :: 0 <= i < |rest| ==> rest[i] >= 1 by {
        if idx != [] && idx[0] == 0 {
          forall i | 0 <= i < |rest| ensures rest[i] >= 1 {
            assert rest[i] == idx[i + 1];
          }
        } else {
          forall i | 0 <= i < |rest| ensures rest[i] >= 1 {
            assert idx[0] <= idx[i];
          }
        }
      }
      var shifted := seq(|rest|, i requires 0 <= i < |rest| => rest[i] - 1);
      assert forall i :: 0 <= i < |shifted| ==> shifted[i] < |s[1..]| && s[1..][shifted[i]] == v;
      FrequencyAtLeast(s[1..], v, shifted);
    }
  }

  /** Swaps VOID and NEUTRAL through their integer codes, exactly as the
      generator does: `((code + 2 + 1) % 2) - 2`. The left operand of `%` is
      positive for every code, so truncating and Euclidean remainder agree. */
  function InvertOwner(o: Owner): (r: Owner)
    ensures IsTerrainValue(r)
  {
    FromCode((Code(o) + 2 + 1) % 2 - 2)
  }

  /** The inversion turns VOID into NEUTRAL and NEUTRAL into VOID, and is its
      own inverse on terrain. */
  lemma InvertOwnerSwaps(o: Owner)
    requires IsTerrainValue(o)
    ensures o == Void ==> InvertOwner(o) == Neutral
    ensures o == Neutral ==> InvertOwner(o) == Void
    ensures InvertOwner(InvertOwner(o)) == o
  {
  }

  /** The whole-board inversion pass. */
  function Invert(n: nat, g: map<Pos, Owner>): (r: map<Pos, Owner>)
    requires IsGrid(n, g)
    ensures IsGrid(n, r)
    ensures IsTerrain(r)
  {
    map p | p in g :: InvertOwner(g[p])
  }

  /** On a terrain board the inversion swaps exactly VOID and NEUTRAL, cell
      by cell, and applying it twice gives the board back. */
  lemma InvertSwapsTerrain(n: nat, g: map<Pos, Owner>)
    requires IsGrid(n, g) && IsTerrain(g)
    ensures forall p :: p in g ==> (Invert(n, g)[p] == Neutral <==> g[p] == Void)
    ensures Invert(n, Invert(n, g)) == g
  {
    forall p | p in g
      ensures Invert(n, g)[p] == Neutral <==> g[p] == Void
      ensures Invert(n, Invert(n, g))[p] == g[p]
    {
      InvertOwnerSwaps(g[p]);
    }
  }

  /** Inversion commutes with the board rotation, so a symmetric board stays
      symmetric. */
  lemma InvertKeepsSymmetry(n: nat, g: map<Pos, Owner>)
    requires IsGrid(n, g) && Symmetric(n, g)
    ensures Symmetric(n, Invert(n, g))
  {
  }
}

=== FILE: components.dfy ===
/**
  Discovery of the connected components of NEUTRAL terrain
  (`findConnectedComponents` and its recursive `dfs`).

  As in the source, the search works on a private copy of the board in which
  a visited NEUTRAL cell is overwritten with the marker owner 2; the real
  board is never written.
 */
module Components {
  import opened Grid
  import opened Paths

  /** The owner value a visited cell is overwritten with in the copy. */
  const Marker: Owner := Player(2)

  /** `vis` is the private copy of `g`, except that some NEUTRAL cells of
      `g` carry the marker. */
  ghost predicate VisitedCopy(g: map<Pos, Owner>, vis: map<Pos, Owner>)
  {
    && vis.Keys == g.Keys
    && forall q :: q in g ==> vis[q] == g[q] || (g[q] == Neutral && vis[q] == Marker)
  }

  /** The NEUTRAL cells the copy has marked as visited. */
  ghost function Marked(g: map<Pos, Owner>, vis: map<Pos, Owner>): set<Pos>
  {
    set q | q in g && q in vis && g[q] == Neutral && vis[q] != Neutral
  }

  /** The cells the copy still shows as NEUTRAL. */
  ghost function Unvisited(vis: map<Pos, Owner>): set<Pos>
  {
    set q | q in vis && vis[q] == Neutral
  }

  /** A position the search should still enter: on the board, not VOID on
      the real board, and not yet marked in the copy (`not_visited`). */
  predicate NotVisited(n: nat, g: map<Pos, Owner>, vis: map<Pos, Owner>, p: Pos)
    requires IsGrid(n, g) && vis.Keys == g.Keys
  {
    IsInside(n, g, p) && vis[p] == Neutral
  }

  /** The four positions `dfs` tries, in its order: left, right, up, down. */
  function Around(p: Pos): (r: seq<Pos>)
    ensures |r| == 4
    ensures forall q :: Adjacent(p, q) <==> q in r
  {
    [Pos(p.x - 1, p.y), Pos(p.x + 1, p.y), Pos(p.x, p.y - 1), Pos(p.x, p.y + 1)]
  }

  /** A neighbour the search declined to enter is visited already or is not
      NEUTRAL. */
  lemma NotEnteredIsMarked(n: nat, g: map<Pos, Owner>, vis: map<Pos, Owner>, b: Pos)
    requires IsGrid(n, g) && VisitedCopy(g, vis)
    requires !NotVisited(n, g, vis, b) && IsNeutral(g, b)
    ensures b in Marked(g, vis)
  {
  }

  /** From `vis` to `vis'` the search marked exactly the cells of `added`,
      each once, and unmarked nothing. */
  ghost predicate Grown(g: map<Pos, Owner>, vis: map<Pos, Owner>, vis': map<Pos, Owner>, added: seq<Pos>)
  {
    && VisitedCopy(g, vis')
    && Unvisited(vis') <= Unvisited(vis)
    && Marked(g, vis) <= Marked(g, vis')
    && (forall i :: 0 <= i < |added| ==> added[i] in Marked(g, vis') && added[i] !in Marked(g, vis))
    && (forall q :: q in Marked(g, vis') && q !in Marked(g, vis) ==> q in added)
    && (forall i, j :: 0 <= i < j < |added| ==> added[i] != added[j])
  }

  /** Every cell of `cells` is joined to `p` by a NEUTRAL path. */
  ghost predicate JoinedTo(g: map<Pos, Owner>, p: Pos, cells: seq<Pos>)
  {
    forall q :: q in cells ==> Connected(g, p, q)
  }

  /** Every NEUTRAL neighbour of a cell of `cells` is marked in `vis`. */
  ghost predicate NeighboursMarked(g: map<Pos, Owner>, vis: map<Pos, Owner>, cells: seq<Pos>)
  {
    forall a, b :: a in cells && IsNeutral(g, b) && Adjacent(a, b) ==> b in Marked(g, vis)
  }

  lemma GrownTrans(g: map<Pos, Owner>, v0: map<Pos, Owner>, v1: map<Pos, Owner>, a1: seq<Pos>,
                   v2: map<Pos, Owner>, a2: seq<Pos>)
    requires Grown(g, v0, v1, a1) && Grown(g, v1, v2, a2)
    ensures Grown(g, v0, v2, a1 + a2)
  {
    var a := a1 + a2;
    forall i, j | 0 <= i < j < |a|
      ensures a[i] != a[j]
    {
      if i < |a1| && j >= |a1| {
        assert a[i] in Marked(g, v1);
        assert a[j] == a2[j - |a1|];
      }
    }
    forall q | q in Marked(g, v2) && q !in Marked(g, v0)
      ensures q in a
    {
      if q in Marked(g, v1) {
        assert q in a1;
      } else {
        assert q in a2;
      }
    }
  }

  /** Depth-first search from the unvisited NEUTRAL cell `p` (`dfs`). It
      returns the updated copy and the cells it appended to the current
      component, in the order the recursion appends them: exactly the cells
      it marked, each once, starting with `p`, all joined to `p`, and with
      every NEUTRAL neighbour of each of them visited when it returns. */
  method Dfs(n: nat, g: map<Pos, Owner>, vis: map<Pos, Owner>, p: Pos) returns (vis': map<Pos, Owner>, added: seq<Pos>)
    requires IsGrid(n, g) && VisitedCopy(g, vis)
    requires p in g && vis[p] == Neutral
    ensures Grown(g, vis, vis', added)
    ensures Unvisited(vis') <= Unvisited(vis) - {p}
    ensures |added| > 0 && added[0] == p
    ensures JoinedTo(g, p, added)
    ensures NeighboursMarked(g, vis', added)
    decreases Unvisited(vis)
  {
    vis' := vis[p := Marker];
    added := [p];
    ConnectedRefl(g, p);
    var around := Around(p);
    for k := 0 to 4
      invariant Grown(g, vis, vis', added)
      invariant Unvisited(vis') <= Unvisited(vis) - {p}
      invariant |added| > 0 && added[0] == p
      invariant JoinedTo(g, p, added)
      invariant NeighboursMarked(g, vis', added[1..])
      invariant forall j :: 0 <= j < k && IsNeutral(g, around[j]) ==> around[j] in Marked(g, vis')
    {
      var b := around[k];
      if NotVisited(n, g, vis', b) {
        var before := vis';
        var more;
        vis', more := Dfs(n, g, vis', b);
        AfterVisit(g, vis, p, around, k, before, added, vis', more);
        added := added + more;
      } else if IsNeutral(g, b) {
        NotEnteredIsMarked(n, g, vis', b);
      }
    }
    assert added == [p] + added[1..];
  }

  /** The loop of `dfs` after a recursive search from its `k`-th neighbour. */
  lemma AfterVisit(g: map<Pos, Owner>, vis: map<Pos, Owner>, p: Pos, around: seq<Pos>, k: int,
                   before: map<Pos, Owner>, added: seq<Pos>, after: map<Pos, Owner>, more: seq<Pos>)
    requires around == Around(p) && 0 <= k < 4
    requires Grown(g, vis, before, added)
    requires |added| > 0 && added[0] == p
    requires JoinedTo(g, p, added)
    requires NeighboursMarked(g, before, added[1..])
    requires forall j :: 0 <= j < k && IsNeutral(g, around[j]) ==> around[j] in Marked(g, before)
    requires IsNeutral(g, around[k])
    requires Grown(g, before, after, more)
    requires |more| > 0 && more[0] == around[k]
    requires JoinedTo(g, around[k], more)
    requires NeighboursMarked(g, after, more)
    ensures Grown(g, vis, after, added + more)
    ensures |added + more| > 0 && (added + more)[0] == p
    ensures JoinedTo(g, p, added + more)
    ensures NeighboursMarked(g, after, (added + more)[1..])
    ensures forall j :: 0 <= j < k + 1 && IsNeutral(g, around[j]) ==> around[j] in Marked(g, after)
  {
    GrownTrans(g, vis, before, added, after, more);
    JoinedAppend(g, p, around[k], added, more);
    MarksAppend(g, p, around, k, before, added, after, more);
  }

  /** The cells found from a NEUTRAL neighbour `b` of `p` are joined to `p`
      too. */
  lemma JoinedAppend(g: map<Pos, Owner>, p: Pos, b: Pos, added: seq<Pos>, more: seq<Pos>)
    requires |added| > 0 && added[0] == p && JoinedTo(g, p, added)
    requires Adjacent(p, b) && IsNeutral(g, b) && JoinedTo(g, b, more)
    ensures JoinedTo(g, p, added + more)
  {
    assert Connected(g, p, p);
    ConnectedStep(g, p, p, b);
    forall q | q in more
      ensures Connected(g, p, q)
    {
      ConnectedTrans(g, p, b, q);
    }
  }

  /** The marking facts of the loop of `dfs` after the search from its
      `k`-th neighbour. */
  lemma MarksAppend(g: map<Pos, Owner>, p: Pos, around: seq<Pos>, k: int,
                    before: map<Pos, Owner>, added: seq<Pos>, after: map<Pos, Owner>, more: seq<Pos>)
    requires |around| == 4 && 0 <= k < 4 && |added| > 0
    requires NeighboursMarked(g, before, added[1..])
    requires forall j :: 0 <= j < k && IsNeutral(g, around[j]) ==> around[j] in Marked(g, before)
    requires Marked(g, before) <= Marked(g, after)
    requires |more| > 0 && more[0] == around[k] && more[0] in Marked(g, after)
    requires NeighboursMarked(g, after, more)
    ensures NeighboursMarked(g, after, (added + more)[1..])
    ensures forall j :: 0 <= j < k + 1 && IsNeutral(g, around[j]) ==> around[j] in Marked(g, after)
  {
    assert (added + more)[1..] == added[1..] + more;
  }

  /** Every list is non-empty and holds only marked cells. */
  ghost predicate ListsMarked(g: map<Pos, Owner>, vis: map<Pos, Owner>, comps: seq<seq<Pos>>)
  {
    && (forall k :: 0 <= k < |comps| ==> |comps[k]| > 0)
    && (forall k, q :: 0 <= k < |comps| && q in comps[k] ==> q in Marked(g, vis))
  }

  /** Every marked cell is in some list. */
  ghost predicate MarkedCovered(g: map<Pos, Owner>, vis: map<Pos, Owner>, comps: seq<seq<Pos>>)
  {
    forall q :: q in Marked(g, vis) ==> exists k :: 0 <= k < |comps| && q in comps[k]
  }

  /** No cell is in two lists. */
  ghost predicate ListsDisjoint(comps: seq<seq<Pos>>)
  {
    forall k1, k2, q :: 0 <= k1 < |comps| && 0 <= k2 < |comps| && q in comps[k1] && q in comps[k2] ==> k1 == k2
  }

  /** No list has a NEUTRAL neighbour outside it. */
  ghost predicate ListsClosed(g: map<Pos, Owner>, comps: seq<seq<Pos>>)
  {
    forall k, a, b :: 0 <= k < |comps| && a in comps[k] && IsNeutral(g, b) && Adjacent(a, b) ==> b in comps[k]
  }

  /** Every cell of a list is joined to the list's first cell. */
  ghost predicate ListsJoined(g: map<Pos, Owner>, comps: seq<seq<Pos>>)
  {
    forall k, q :: 0 <= k < |comps| && q in comps[k] ==> |comps[k]| > 0 && Connected(g, comps[k][0], q)
  }

  /** No list repeats a cell. */
  ghost predicate ListsDistinct(comps: seq<seq<Pos>>)
  {
    forall k, i, j :: 0 <= k < |comps| && 0 <= i < j < |comps[k]| ==> comps[k][i] != comps[k][j]
  }

  /** What holds between two searches of the scan: the lists partition the
      marked cells into closed, connected, duplicate-free lists. */
  ghost predicate ScanInvariant(g: map<Pos, Owner>, vis: map<Pos, Owner>, comps: seq<seq<Pos>>)
  {
    && VisitedCopy(g, vis)
    && ListsMarked(g, vis, comps)
    && MarkedCovered(g, vis, comps)
    && ListsDisjoint(comps)
    && ListsClosed(g, comps)
    && ListsJoined(g, comps)
    && ListsDistinct(comps)
  }

  /** Appending the list produced by a search started from an unvisited cell
      keeps the scan invariant. */
  lemma AddComponent(g: map<Pos, Owner>, vis: map<Pos, Owner>, comps: seq<seq<Pos>>, vis': map<Pos, Owner>, d: seq<Pos>)
    requires ScanInvariant(g, vis, comps)
    requires Grown(g, vis, vis', d)
    requires |d| > 0 && JoinedTo(g, d[0], d)
    requires NeighboursMarked(g, vis', d)
    ensures ScanInvariant(g, vis', comps + [d])
  {
    var cs := comps + [d];
    assert forall k :: 0 <= k < |comps| ==> cs[k] == comps[k];
    assert cs[|comps|] == d;
    AddMarked(g, vis, comps, vis', d);
    AddCovered(g, vis, comps, vis', d);
    AddDisjoint(g, vis, comps, vis', d);
    AddClosed(g, vis, comps, vis', d);
    AddJoined(g, comps, d);
    AddDistinct(comps, d);
  }

  lemma AddMarked(g: map<Pos, Owner>, vis: map<Pos, Owner>, comps: seq<seq<Pos>>, vis': map<Pos, Owner>, d: seq<Pos>)
    requires ListsMarked(g, vis, comps) && Grown(g, vis, vis', d) && |d| > 0
    ensures ListsMarked(g, vis', comps + [d])
  {
    var cs := comps + [d];
    forall k, q | 0 <= k < |cs| && q in cs[k]
      ensures q in Marked(g, vis')
    {
      if k == |comps| {
        assert q in d;
      } else {
        assert cs[k] == comps[k];
      }
    }
  }

  lemma AddCovered(g: map<Pos, Owner>, vis: map<Pos, Owner>, comps: seq<seq<Pos>>, vis': map<Pos, Owner>, d: seq<Pos>)
    requires MarkedCovered(g, vis, comps) && Grown(g, vis, vis', d)
    ensures MarkedCovered(g, vis', comps + [d])
  {
    var cs := comps + [d];
    forall q | q in Marked(g, vis')
      ensures exists k :: 0 <= k < |cs| && q in cs[k]
    {
      if q in Marked(g, vis) {
        var k :| 0 <= k < |comps| && q in comps[k];
        assert q in cs[k];
      } else {
        assert q in cs[|comps|];
      }
    }
  }

  lemma AddDisjoint(g: map<Pos, Owner>, vis: map<Pos, Owner>, comps: seq<seq<Pos>>, vis': map<Pos, Owner>, d: seq<Pos>)
    requires ListsMarked(g, vis, comps) && ListsDisjoint(comps) && Grown(g, vis, vis', d)
    ensures ListsDisjoint(comps + [d])
  {
    var cs := comps + [d];
    forall k1, k2, q | 0 <= k1 < |cs| && 0 <= k2 < |cs| && q in cs[k1] && q in cs[k2]
      ensures k1 == k2
    {
      if k1 < |comps| && k2 < |comps| {
        assert cs[k1] == comps[k1] && cs[k2] == comps[k2];
      }
    }
  }

  lemma AddClosed(g: map<Pos, Owner>, vis: map<Pos, Owner>, comps: seq<seq<Pos>>, vis': map<Pos, Owner>, d: seq<Pos>)
    requires VisitedCopy(g, vis) && ListsMarked(g, vis, comps) && MarkedCovered(g, vis, comps)
    requires ListsClosed(g, comps) && Grown(g, vis, vis', d) && NeighboursMarked(g, vis', d)
    ensures ListsClosed(g, comps + [d])
  {
    var cs := comps + [d];
    forall k, a, b | 0 <= k < |cs| && a in cs[k] && IsNeutral(g, b) && Adjacent(a, b)
      ensures b in cs[k]
    {
      if k < |comps| {
        assert cs[k] == comps[k];
      } else {
        assert a in d;
        AdjacentSymmetric(a, b);
        if b in Marked(g, vis) {
          assert false;
        }
      }
    }
  }

  lemma AddJoined(g: map<Pos, Owner>, comps: seq<seq<Pos>>, d: seq<Pos>)
    requires ListsJoined(g, comps) && |d| > 0 && JoinedTo(g, d[0], d)
    ensures ListsJoined(g, comps + [d])
  {
    var cs := comps + [d];
    assert forall k :: 0 <= k < |comps| ==> cs[k] == comps[k];
  }

  lemma AddDistinct(comps: seq<seq<Pos>>, d: seq<Pos>)
    requires ListsDistinct(comps) && forall i, j :: 0 <= i < j < |d| ==> d[i] != d[j]
    ensures ListsDistinct(comps + [d])
  {
    var cs := comps + [d];
    assert forall k :: 0 <= k < |comps| ==> cs[k] == comps[k];
  }

  /** The component lists `findConnectedComponents` promises: every NEUTRAL
      cell lies in exactly one list, no other cell lies in any, no list
      repeats a cell, and two cells share a list exactly when a path of
      NEUTRAL cells joins them. */
  ghost predicate IsComponentPartition(g: map<Pos, Owner>, comps: seq<seq<Pos>>)
  {
    && (forall k :: 0 <= k < |comps| ==> |comps[k]| > 0)
    && (forall k, q :: 0 <= k < |comps| && q in comps[k] ==> IsNeutral(g, q))
    && (forall q :: IsNeutral(g, q) ==> exists k :: 0 <= k < |comps| && q in comps[k])
    && (forall k1, k2, q :: 0 <= k1 < |comps| && 0 <= k2 < |comps| && q in comps[k1] && q in comps[k2] ==> k1 == k2)
    && (forall k, i, j :: 0 <= k < |comps| && 0 <= i < j < |comps[k]| ==> comps[k][i] != comps[k][j])
    && (forall k, a, b :: 0 <= k < |comps| && a in comps[k] && b in comps[k] ==> Connected(g, a, b))
    && (forall k1, k2, a, b :: 0 <= k1 < |comps| && 0 <= k2 < |comps| && a in comps[k1] && b in comps[k2]
          && Connected(g, a, b)
          ==> k1 == k2)
  }

  /** The scan over the whole board (`findConnectedComponents`): a search is
      started from every cell, in column-major order, that the copy still
      shows as NEUTRAL. */
  method FindConnectedComponents(n: nat, g: map<Pos, Owner>) returns (comps: seq<seq<Pos>>)
    requires IsGrid(n, g)
    ensures IsComponentPartition(g, comps)
  {
    var vis := g;
    comps := [];
    var x := 0;
    while x < n
      invariant 0 <= x <= n
      invariant ScanInvariant(g, vis, comps)
      invariant ScannedBefore(g, vis, x, 0)
    {
      vis, comps := ScanColumn(n, g, vis, comps, x);
      x := x + 1;
    }
    ScanComplete(n, g, vis, comps);
  }

  /** The inner loop of the scan for one column `x`. */
  method ScanColumn(n: nat, g: map<Pos, Owner>, vis0: map<Pos, Owner>, comps0: seq<seq<Pos>>, x: int)
    returns (vis: map<Pos, Owner>, comps: seq<seq<Pos>>)
    requires IsGrid(n, g) && 0 <= x < n
    requires ScanInvariant(g, vis0, comps0)
    requires ScannedBefore(g, vis0, x, 0)
    ensures ScanInvariant(g, vis, comps)
    ensures ScannedBefore(g, vis, x + 1, 0)
  {
    vis, comps := vis0, comps0;
    var y := 0;
    while y < n
      invariant 0 <= y <= n
      invariant ScanInvariant(g, vis, comps)
      invariant ScannedBefore(g, vis, x, y)
    {
      var p := Pos(x, y);
      if vis[p] == Neutral {
        var vis', d := Dfs(n, g, vis, p);
        AddComponent(g, vis, comps, vis', d);
        ScannedGrows(n, g, vis, vis', x, y, d);
        vis, comps := vis', comps + [d];
      } else {
        ScannedSkip(n, g, vis, x, y);
      }
      y := y + 1;
    }
    assert forall q :: q in g ==> q.y < n;
  }

  /** The NEUTRAL cells before (x, y) in scan order are all marked. */
  ghost predicate ScannedBefore(g: map<Pos, Owner>, vis: map<Pos, Owner>, x: int, y: int)
  {
    forall q :: q in g && (q.x < x || (q.x == x && q.y < y)) && g[q] == Neutral ==> q in Marked(g, vis)
  }

  lemma ScannedGrows(n: nat, g: map<Pos, Owner>, vis: map<Pos, Owner>, vis': map<Pos, Owner>, x: int, y: int, d: seq<Pos>)
    requires ScannedBefore(g, vis, x, y)
    requires Grown(g, vis, vis', d) && |d| > 0 && d[0] == Pos(x, y)
    ensures ScannedBefore(g, vis', x, y + 1)
  {
  }

  lemma ScannedSkip(n: nat, g: map<Pos, Owner>, vis: map<Pos, Owner>, x: int, y: int)
    requires IsGrid(n, g) && 0 <= x < n && 0 <= y < n
    requires VisitedCopy(g, vis) && ScannedBefore(g, vis, x, y)
    requires vis[Pos(x, y)] != Neutral
    ensures ScannedBefore(g, vis, x, y + 1)
  {
  }

  /** Once every NEUTRAL cell is marked, the scan invariant is the promised
      partition. */
  lemma ScanComplete(n: nat, g: map<Pos, Owner>, vis: map<Pos, Owner>, comps: seq<seq<Pos>>)
    requires IsGrid(n, g)
    requires ScanInvariant(g, vis, comps)
    requires ScannedBefore(g, vis, n, 0)
    ensures IsComponentPartition(g, comps)
  {
    ComponentsJoined(g, vis, comps);
    ComponentsApart(g, vis, comps);
  }

  lemma ComponentsJoined(g: map<Pos, Owner>, vis: map<Pos, Owner>, comps: seq<seq<Pos>>)
    requires ScanInvariant(g, vis, comps)
    ensures forall k, a, b :: 0 <= k < |comps| && a in comps[k] && b in comps[k] ==> Connected(g, a, b)
  {
    forall k, a, b | 0 <= k < |comps| && a in comps[k] && b in comps[k]
      ensures Connected(g, a, b)
    {
      ConnectedSym(g, comps[k][0], a);
      ConnectedTrans(g, a, comps[k][0], b);
    }
  }

  lemma ComponentsApart(g: map<Pos, Owner>, vis: map<Pos, Owner>, comps: seq<seq<Pos>>)
    requires ScanInvariant(g, vis, comps)
    ensures forall k1, k2, a, b ::
      0 <= k1 < |comps| && 0 <= k2 < |comps| && a in comps[k1] && b in comps[k2] && Connected(g, a, b) ==> k1 == k2
  {
    forall k1, k2, a, b | 0 <= k1 < |comps| && 0 <= k2 < |comps| && a in comps[k1] && b in comps[k2]
        && Connected(g, a, b)
      ensures k1 == k2
    {
      var c := set q | q in comps[k1];
      ConnectedClosed(g, c, a, b);
    }
  }

  /** On a board whose NEUTRAL cells are all joined, the scan finds a single
      component, unless the board has no NEUTRAL cell at all. */
  lemma SingleComponent(g: map<Pos, Owner>, comps: seq<seq<Pos>>, some: Pos)
    requires IsComponentPartition(g, comps)
    requires IsNeutral(g, some)
    requires forall a, b :: IsNeutral(g, a) && IsNeutral(g, b) ==> Connected(g, a, b)
    ensures |comps| == 1
  {
    var k :| 0 <= k < |comps| && some in comps[k];
    // every component holds a cell joined to `some`, so it is `some`'s own
    forall j | 0 <= j < |comps|
      ensures some in comps[j]
    {
      var q := comps[j][0];
      assert q in comps[j];
      assert Connected(g, some, q);
    }
    // the first and the last component are then the same
    assert some in comps[0] && some in comps[|comps| - 1];
  }
}

=== FILE: corridors.dfy ===
/**
  Connectivity repair (`linkComponents`): one cell is drawn from every
  component and, for every pair of drawn cells, an L-shaped corridor and its
  mirror image are carved NEUTRAL.

  Every write of the carving loops stores NEUTRAL, so the order of the writes
  does not matter: the result is the board with the union of all corridors
  and their mirrors set NEUTRAL, which is how it is stated here.
 */
module Corridors {
  import opened Grid
  import opened Paths
  import opened Components

  function Min(a: int, b: int): int { if a <= b then a else b }
  function Max(a: int, b: int): int { if a <= b then b else a }

  /** `q` is one of the cells carved for the pair (node1, node2): the run of
      row `node2.y` between the two x coordinates, and the run of column
      `node1.x` between the two y coordinates. */
  predicate OnCorridor(node1: Pos, node2: Pos, q: Pos)
  {
    || (q.y == node2.y && Min(node1.x, node2.x) <= q.x <= Max(node1.x, node2.x))
    || (q.x == node1.x && Min(node1.y, node2.y) <= q.y <= Max(node1.y, node2.y))
  }

  /** `q` is carved for some pair i < j of the drawn cells. */
  predicate Carved(reps: seq<Pos>, q: Pos)
  {
    exists i, j | 0 <= i < j < |reps| :: OnCorridor(reps[i], reps[j], q)
  }

  /** The source of randomness for the draw: `pick(k, size)` is the index
      `generator.nextInt(size)` returns for the k-th component. */
  ghost predicate ValidChooser(pick: (nat, nat) -> nat)
  {
    forall k: nat, size: nat :: size > 0 ==> pick(k, size) < size
  }

  /** The drawn cell of every component, in component order. */
  function Representatives(comps: seq<seq<Pos>>, pick: (nat, nat) -> nat): (reps: seq<Pos>)
    requires forall k :: 0 <= k < |comps| ==> |comps[k]| > 0
    requires ValidChooser(pick)
    ensures |reps| == |comps|
    ensures forall k :: 0 <= k < |comps| ==> reps[k] in comps[k]
  {
    seq(|comps|, k requires 0 <= k < |comps| => comps[k][pick(k, |comps[k]|)])
  }

  /** The board after all corridors between the drawn cells, and their
      mirrors, have been carved. */
  function Carve(n: nat, g: map<Pos, Owner>, reps: seq<Pos>): (r: map<Pos, Owner>)
    requires IsGrid(n, g)
    ensures IsGrid(n, r)
  {
    map q | q in g :: if Carved(reps, q) || Carved(reps, Mirror(n, q)) then Neutral else g[q]
  }

  /** `linkComponents`: find the components; with exactly one there is
      nothing to do; otherwise draw a cell per component and carve every
      pairwise corridor together with its mirror. Returns the new board, the
      drawn cells and the components they were drawn from. */
  method LinkComponents(n: nat, g: map<Pos, Owner>, pick: (nat, nat) -> nat)
    returns (r: map<Pos, Owner>, reps: seq<Pos>, comps: seq<seq<Pos>>)
    requires IsGrid(n, g) && ValidChooser(pick)
    ensures IsComponentPartition(g, comps)
    ensures |comps| == 1 ==> reps == [] && r == g
    ensures |comps| != 1 ==> reps == Representatives(comps, pick) && r == Carve(n, g, reps)
    ensures IsGrid(n, r)
    ensures forall q :: q in g && g[q] == Neutral ==> r[q] == Neutral
    ensures forall q :: q in g && r[q] != g[q] ==> r[q] == Neutral
    ensures forall k :: 0 <= k < |reps| ==> IsNeutral(g, reps[k])
    ensures forall i, j :: 0 <= i < j < |reps| ==> !Connected(g, reps[i], reps[j])
    ensures forall i, j, q :: 0 <= i < j < |reps| && OnCorridor(reps[i], reps[j], q)
              ==> q in r && r[q] == Neutral && r[Mirror(n, q)] == Neutral
    ensures forall q :: q in g && r[q] != g[q] ==> Carved(reps, q) || Carved(reps, Mirror(n, q))
    ensures IsTerrain(g) && Symmetric(n, g) ==> IsTerrain(r) && Symmetric(n, r)
    ensures Symmetric(n, g) ==> forall a, b :: IsNeutral(r, a) && IsNeutral(r, b) ==> Connected(r, a, b)
  {
    comps := FindConnectedComponents(n, g);
    if |comps| == 1 {
      r, reps := g, [];
      OneComponentJoined(g, comps);
      return;
    }
    reps := Representatives(comps, pick);
    r := Carve(n, g, reps);
    RepsSeparate(g, comps, reps);
    CorridorsNeutral(n, g, comps, reps);
    CarvePreservesSymmetry(n, g, reps);
    if Symmetric(n, g) {
      CarveJoinsAll(n, g, comps, reps);
    }
  }

  /** With a single component every two NEUTRAL cells are already joined. */
  lemma OneComponentJoined(g: map<Pos, Owner>, comps: seq<seq<Pos>>)
    requires IsComponentPartition(g, comps) && |comps| == 1
    ensures forall a, b :: IsNeutral(g, a) && IsNeutral(g, b) ==> Connected(g, a, b)
  {
    forall a, b | IsNeutral(g, a) && IsNeutral(g, b)
      ensures Connected(g, a, b)
    {
      assert a in comps[0] && b in comps[0];
    }
  }

  /** The drawn cells come from different components, so no two of them were
      joined before carving. */
  lemma RepsSeparate(g: map<Pos, Owner>, comps: seq<seq<Pos>>, reps: seq<Pos>)
    requires IsComponentPartition(g, comps)
    requires |reps| == |comps| && forall k :: 0 <= k < |comps| ==> reps[k] in comps[k]
    ensures forall k :: 0 <= k < |reps| ==> IsNeutral(g, reps[k])
    ensures forall i, j :: 0 <= i < j < |reps| ==> !Connected(g, reps[i], reps[j])
  {
  }

  /** A corridor between two cells of the board stays on the board. */
  lemma CorridorInBounds(n: nat, a: Pos, b: Pos, q: Pos)
    requires InBounds(n, a) && InBounds(n, b) && OnCorridor(a, b, q)
    ensures InBounds(n, q)
  {
  }

  lemma CorridorsNeutral(n: nat, g: map<Pos, Owner>, comps: seq<seq<Pos>>, reps: seq<Pos>)
    requires IsGrid(n, g) && IsComponentPartition(g, comps)
    requires |reps| == |comps| && forall k :: 0 <= k < |comps| ==> reps[k] in comps[k]
    ensures forall i, j, q :: 0 <= i < j < |reps| && OnCorridor(reps[i], reps[j], q)
              ==> q in Carve(n, g, reps) && Carve(n, g, reps)[q] == Neutral
                  && Carve(n, g, reps)[Mirror(n, q)] == Neutral
  {
    var r := Carve(n, g, reps);
    forall i, j, q | 0 <= i < j < |reps| && OnCorridor(reps[i], reps[j], q)
      ensures q in r && r[q] == Neutral && r[Mirror(n, q)] == Neutral
    {
      assert IsNeutral(g, reps[i]) && IsNeutral(g, reps[j]);
      CorridorInBounds(n, reps[i], reps[j], q);
      assert Carved(reps, q);
      MirrorInvolution(n, q);
      assert Carved(reps, Mirror(n, Mirror(n, q)));
    }
  }

  /** Carving a cell always carves its mirror, so symmetry and terrain are
      kept. */
  lemma CarvePreservesSymmetry(n: nat, g: map<Pos, Owner>, reps: seq<Pos>)
    requires IsGrid(n, g)
    ensures IsTerrain(g) && Symmetric(n, g) ==> IsTerrain(Carve(n, g, reps)) && Symmetric(n, Carve(n, g, reps))
  {
    if IsTerrain(g) && Symmetric(n, g) {
      var r := Carve(n, g, reps);
      forall q | q in r
        ensures Mirror(n, q) in r && r[Mirror(n, q)] == r[q]
      {
        MirrorInvolution(n, q);
      }
    }
  }

  /** A fully NEUTRAL corridor joins each of its cells to its first end. */
  lemma CorridorCellJoined(r: map<Pos, Owner>, a: Pos, b: Pos, c: Pos)
    requires forall q :: OnCorridor(a, b, q) ==> IsNeutral(r, q)
    requires OnCorridor(a, b, c)
    ensures Connected(r, c, a)
  {
    var corner := Pos(a.x, b.y);
    assert OnCorridor(a, b, corner) && OnCorridor(a, b, a);
    // the column run joins the corner to `a`
    ColumnConnected(r, a.x, Min(a.y, b.y), Max(a.y, b.y));
    ColumnBetween(r, a.x, Min(a.y, b.y), Max(a.y, b.y), b.y, a.y);
    if c.x == a.x && Min(a.y, b.y) <= c.y <= Max(a.y, b.y) {
      ColumnBetween(r, a.x, Min(a.y, b.y), Max(a.y, b.y), c.y, a.y);
    } else {
      RowBetween(r, b.y, Min(a.x, b.x), Max(a.x, b.x), c.x, a.x);
      ConnectedTrans(r, c, corner, a);
    }
  }

  /** Two cells of a fully NEUTRAL stretch of a column are joined. */
  lemma ColumnBetween(r: map<Pos, Owner>, x: int, lo: int, hi: int, y0: int, y1: int)
    requires forall y :: lo <= y <= hi ==> IsNeutral(r, Pos(x, y))
    requires lo <= y0 <= hi && lo <= y1 <= hi
    ensures Connected(r, Pos(x, y0), Pos(x, y1))
  {
    if y0 <= y1 {
      ColumnConnected(r, x, y0, y1);
    } else {
      ColumnConnected(r, x, y1, y0);
      ConnectedSym(r, Pos(x, y1), Pos(x, y0));
    }
  }

  /** Two cells of a fully NEUTRAL stretch of a row are joined. */
  lemma RowBetween(r: map<Pos, Owner>, y: int, lo: int, hi: int, x0: int, x1: int)
    requires forall x :: lo <= x <= hi ==> IsNeutral(r, Pos(x, y))
    requires lo <= x0 <= hi && lo <= x1 <= hi
    ensures Connected(r, Pos(x0, y), Pos(x1, y))
  {
    if x0 <= x1 {
      RowConnected(r, y, x0, x1);
    } else {
      RowConnected(r, y, x1, x0);
      ConnectedSym(r, Pos(x1, y), Pos(x0, y));
    }
  }

  /** On a symmetric board with two or more components, carving every
      pairwise corridor leaves all NEUTRAL cells joined to each other. */
  lemma CarveJoinsAll(n: nat, g: map<Pos, Owner>, comps: seq<seq<Pos>>, reps: seq<Pos>)
    requires IsGrid(n, g) && Symmetric(n, g) && IsComponentPartition(g, comps)
    requires |reps| == |comps| && forall k :: 0 <= k < |comps| ==> reps[k] in comps[k]
    ensures forall a, b :: IsNeutral(Carve(n, g, reps), a) && IsNeutral(Carve(n, g, reps), b)
              ==> Connected(Carve(n, g, reps), a, b)
  {
    var r := Carve(n, g, reps);
    CorridorsNeutral(n, g, comps, reps);
    CarvePreservesSymmetry(n, g, reps);
    assert Symmetric(n, r) by {
      forall q | q in r
        ensures Mirror(n, q) in r && r[Mirror(n, q)] == r[q]
      {
        MirrorInvolution(n, q);
      }
    }
    if |reps| == 0 {
      forall a | IsNeutral(r, a)
        ensures false
      {
        assert !Carved(reps, a) && !Carved(reps, Mirror(n, a));
        assert IsNeutral(g, a);
      }
    } else {
      forall a | IsNeutral(r, a)
        ensures Connected(r, a, reps[0])
      {
        JoinedToHub(n, g, comps, reps, a);
      }
      forall a, b | IsNeutral(r, a) && IsNeutral(r, b)
        ensures Connected(r, a, b)
      {
        ConnectedSym(r, b, reps[0]);
        ConnectedTrans(r, a, reps[0], b);
      }
    }
  }

  /** Every drawn cell is joined to the first one after carving. */
  lemma RepJoinedToHub(n: nat, g: map<Pos, Owner>, comps: seq<seq<Pos>>, reps: seq<Pos>, k: int)
    requires IsGrid(n, g) && IsComponentPartition(g, comps)
    requires |reps| == |comps| && forall k :: 0 <= k < |comps| ==> reps[k] in comps[k]
    requires 0 <= k < |reps|
    ensures Connected(Carve(n, g, reps), reps[k], reps[0])
  {
    var r := Carve(n, g, reps);
    CorridorsNeutral(n, g, comps, reps);
    if k == 0 {
      assert IsNeutral(g, reps[0]);
      ConnectedRefl(r, reps[0]);
    } else {
      assert OnCorridor(reps[0], reps[k], reps[k]);
      CorridorCellJoined(r, reps[0], reps[k], reps[k]);
    }
  }

  /** A NEUTRAL cell of the board before carving is joined to the first
      drawn cell after carving. */
  lemma OldCellJoinedToHub(n: nat, g: map<Pos, Owner>, comps: seq<seq<Pos>>, reps: seq<Pos>, a: Pos)
    requires IsGrid(n, g) && IsComponentPartition(g, comps)
    requires |reps| == |comps| && forall k :: 0 <= k < |comps| ==> reps[k] in comps[k]
    requires |reps| > 0 && IsNeutral(g, a)
    ensures Connected(Carve(n, g, reps), a, reps[0])
  {
    var r := Carve(n, g, reps);
    var k :| 0 <= k < |comps| && a in comps[k];
    assert Connected(g, a, reps[k]);
    ConnectedMono(g, r, a, reps[k]);
    RepJoinedToHub(n, g, comps, reps, k);
    ConnectedTrans(r, a, reps[k], reps[0]);
  }

  /** Every NEUTRAL cell after carving is joined to the first drawn cell. */
  lemma JoinedToHub(n: nat, g: map<Pos, Owner>, comps: seq<seq<Pos>>, reps: seq<Pos>, a: Pos)
    requires IsGrid(n, g) && Symmetric(n, g) && IsComponentPartition(g, comps)
    requires |reps| == |comps| && forall k :: 0 <= k < |comps| ==> reps[k] in comps[k]
    requires |reps| > 0 && IsNeutral(Carve(n, g, reps), a)
    requires Symmetric(n, Carve(n, g, reps))
    ensures Connected(Carve(n, g, reps), a, reps[0])
  {
    if Carved(reps, a) {
      CarvedCellJoinedToHub(n, g, comps, reps, a);
    } else if Carved(reps, Mirror(n, a)) {
      MirroredCellJoinedToHub(n, g, comps, reps, a);
    } else {
      OldCellJoinedToHub(n, g, comps, reps, a);
    }
  }

  lemma CarvedCellJoinedToHub(n: nat, g: map<Pos, Owner>, comps: seq<seq<Pos>>, reps: seq<Pos>, a: Pos)
    requires IsGrid(n, g) && IsComponentPartition(g, comps)
    requires |reps| == |comps| && forall k :: 0 <= k < |comps| ==> reps[k] in comps[k]
    requires Carved(reps, a)
    ensures Connected(Carve(n, g, reps), a, reps[0])
  {
    var r := Carve(n, g, reps);
    CorridorsNeutral(n, g, comps, reps);
    var i, j :| 0 <= i < j < |reps| && OnCorridor(reps[i], reps[j], a);
    CorridorCellJoined(r, reps[i], reps[j], a);
    RepJoinedToHub(n, g, comps, reps, i);
    ConnectedTrans(r, a, reps[i], reps[0]);
  }

  lemma MirroredCellJoinedToHub(n: nat, g: map<Pos, Owner>, comps: seq<seq<Pos>>, reps: seq<Pos>, a: Pos)
    requires IsGrid(n, g) && Symmetric(n, g) && IsComponentPartition(g, comps)
    requires |reps| == |comps| && forall k :: 0 <= k < |comps| ==> reps[k] in comps[k]
    requires Symmetric(n, Carve(n, g, reps))
    requires Carved(reps, Mirror(n, a))
    ensures Connected(Carve(n, g, reps), a, reps[0])
  {
    var i, j :| 0 <= i < j < |reps| && OnCorridor(reps[i], reps[j], Mirror(n, a));
    MirroredCorridorCellJoined(n, g, comps, reps, a, i, j);
  }

  lemma MirroredCorridorCellJoined(n: nat, g: map<Pos, Owner>, comps: seq<seq<Pos>>, reps: seq<Pos>, a: Pos, i: int, j: int)
    requires IsGrid(n, g) && Symmetric(n, g) && IsComponentPartition(g, comps)
    requires |reps| == |comps| && forall k :: 0 <= k < |comps| ==> reps[k] in comps[k]
    requires Symmetric(n, Carve(n, g, reps))
    requires 0 <= i < j < |reps| && OnCorridor(reps[i], reps[j], Mirror(n, a))
    ensures Connected(Carve(n, g, reps), a, reps[0])
  {
    var r := Carve(n, g, reps);
    PairCorridorNeutral(n, g, comps, reps, i, j);
    CorridorCellJoined(r, reps[i], reps[j], Mirror(n, a));
    RepMirrorNeutral(n, g, comps, reps, i);
    OldCellJoinedToHub(n, g, comps, reps, Mirror(n, reps[i]));
    MirrorJoined(n, r, a, reps[i], reps[0]);
  }

  lemma PairCorridorNeutral(n: nat, g: map<Pos, Owner>, comps: seq<seq<Pos>>, reps: seq<Pos>, i: int, j: int)
    requires IsGrid(n, g) && IsComponentPartition(g, comps)
    requires |reps| == |comps| && forall k :: 0 <= k < |comps| ==> reps[k] in comps[k]
    requires 0 <= i < j < |reps|
    ensures forall q :: OnCorridor(reps[i], reps[j], q) ==> IsNeutral(Carve(n, g, reps), q)
  {
    CorridorsNeutral(n, g, comps, reps);
  }

  lemma RepMirrorNeutral(n: nat, g: map<Pos, Owner>, comps: seq<seq<Pos>>, reps: seq<Pos>, i: int)
    requires IsGrid(n, g) && Symmetric(n, g) && IsComponentPartition(g, comps)
    requires |reps| == |comps| && forall k :: 0 <= k < |comps| ==> reps[k] in comps[k]
    requires 0 <= i < |reps|
    ensures IsNeutral(g, Mirror(n, reps[i]))
  {
    assert IsNeutral(g, reps[i]);
  }

  /** On a symmetric board, a cell whose mirror is joined to `b` is joined to
      wherever the mirror of `b` is joined. */
  lemma MirrorJoined(n: nat, r: map<Pos, Owner>, a: Pos, b: Pos, hub: Pos)
    requires Symmetric(n, r)
    requires Connected(r, Mirror(n, a), b) && Connected(r, Mirror(n, b), hub)
    ensures Connected(r, a, hub)
  {
    ConnectedMirror(n, r, Mirror(n, a), b);
    MirrorInvolution(n, a);
    ConnectedTrans(r, a, Mirror(n, b), hub);
  }
}

=== FILE: generator.dfy ===
/**
  The whole map generator (`generateMap`) with its randomness taken as
  input: the initial VOID/NEUTRAL fill and the draw of one cell per
  component.
 */
module Generator {
  import opened Grid
  import opened Paths
  import opened Automaton
  import opened Symmetry
  import opened Components
  import opened Corridors
  import opened Neighbours

  /** Runs the pipeline: NEUTRAL origin block, `iterations` automaton steps
      with threshold `t`, inversion, point symmetry, NEUTRAL corner blocks,
      corridor carving, neighbour links. The result is a point-symmetric
      terrain board whose NEUTRAL cells are all joined to each other and
      whose corner blocks are NEUTRAL, so that the component finder would
      report exactly one component, with the links of that board. */
  method GenerateMap(n: nat, fill: map<Pos, Owner>, t: int, iterations: nat, pick: (nat, nat) -> nat)
    returns (g: map<Pos, Owner>, links: map<Pos, seq<Pos>>)
    requires n >= 3 && IsGrid(n, fill) && ValidChooser(pick)
    ensures IsGrid(n, g) && IsTerrain(g) && Symmetric(n, g)
    ensures forall p :: p in g && InCornerBlock(n, p) ==> g[p] == Neutral
    ensures forall a, b :: IsNeutral(g, a) && IsNeutral(g, b) ==> Connected(g, a, b)
    ensures forall comps :: IsComponentPartition(g, comps) ==> |comps| == 1
    ensures LinksOf(n, g, links)
  {
    var m := ShapeTerrain(n, fill, t, iterations);
    var reps, comps;
    g, reps, comps := LinkComponents(n, m, pick);
    links := ComputeNeighbours(n, g);
    assert IsNeutral(g, Pos(0, 0)) by {
      assert InCornerBlock(n, Pos(0, 0));
    }
    forall comps | IsComponentPartition(g, comps)
      ensures |comps| == 1
    {
      SingleComponent(g, comps, Pos(0, 0));
    }
  }

  /** Everything before the corridors: a symmetric terrain board whose two
      corner blocks are NEUTRAL. */
  method ShapeTerrain(n: nat, fill: map<Pos, Owner>, t: int, iterations: nat) returns (m: map<Pos, Owner>)
    requires n >= 3 && IsGrid(n, fill)
    ensures IsGrid(n, m) && IsTerrain(m) && Symmetric(n, m)
    ensures forall p :: p in m && InCornerBlock(n, p) ==> m[p] == Neutral
  {
    m := ForceOrigin(n, fill);
    var i := 0;
    while i < iterations
      invariant 0 <= i <= iterations
      invariant IsGrid(n, m)
    {
      m := UpdateMap(n, m, t);
      i := i + 1;
    }
    m := Invert(n, m);
    m := SymmetricTerrain(n, m);
    var before := m;
    m := CornerBlocks(n, before);
    CornerBlocksShape(n, before, m);
    CornerBlocksKeepSymmetry(n, before, m);
  }

  /** The symmetry pass applied to a terrain board leaves terrain. */
  method SymmetricTerrain(n: nat, g: map<Pos, Owner>) returns (m: map<Pos, Owner>)
    requires IsGrid(n, g) && IsTerrain(g)
    ensures IsGrid(n, m) && IsTerrain(m) && Symmetric(n, m)
  {
    m := Symmetrize(n, g);
    forall q | q in m
      ensures IsTerrainValue(m[q])
    {
      MirrorInvolution(n, q);
    }
  }
}

=== FILE: grid.dfy ===
/**
  The square board every other module works on.

  Coordinates follow the `map[x][y]` layout of the game: `x` is the column,
  `y` the row, and both range over `[0, n)`. A board is stored as a map from
  positions to owners whose key set is exactly that square.
 */
module Grid {

  /** A cell coordinate. */
  datatype Pos = Pos(x: int, y: int)

  /** Who holds a cell: impassable terrain, unclaimed terrain, or a player. */
  datatype Owner = Void | Neutral | Player(index: nat)

  /** The integer a cell owner is stored as: the two negative sentinels for
      VOID and NEUTRAL, the player index otherwise. */
  function Code(o: Owner): int
  {
    match o
    case Void => -2
    case Neutral => -1
    case Player(i) => i
  }

  /** Reads an owner back from its integer code. */
  function FromCode(c: int): (o: Owner)
    requires c >= -2
    ensures Code(o) == c
  {
    if c == -2 then Void else if c == -1 then Neutral else Player(c)
  }

  /** Terrain values are the only ones the map generator produces. */
  predicate IsTerrainValue(o: Owner)
  {
    o == Void || o == Neutral
  }

  predicate InBounds(n: nat, p: Pos)
  {
    0 <= p.x < n && 0 <= p.y < n
  }

  /** The key set of `g` is exactly the n x n square. */
  ghost predicate IsGrid(n: nat, g: map<Pos, Owner>)
  {
    forall p :: p in g <==> InBounds(n, p)
  }

  /** Every cell of `g` is VOID or NEUTRAL. */
  ghost predicate IsTerrain(g: map<Pos, Owner>)
  {
    forall p :: p in g ==> IsTerrainValue(g[p])
  }

  /** The cell opposite `p` under the 180-degree rotation about the centre
      of the board (`getSymmetricCell`). */
  function Mirror(n: nat, p: Pos): (q: Pos)
    ensures InBounds(n, p) ==> InBounds(n, q)
    ensures q.x + p.x == n - 1 && q.y + p.y == n - 1
  {
    Pos(n - 1 - p.x, n - 1 - p.y)
  }

  /** Rotating twice gives the cell back. */
  lemma MirrorInvolution(n: nat, p: Pos)
    ensures Mirror(n, Mirror(n, p)) == p
  {
  }

  /** Point symmetry: every cell agrees with its mirror. */
  ghost predicate Symmetric(n: nat, g: map<Pos, Owner>)
  {
    forall p :: p in g ==> Mirror(n, p) in g && g[Mirror(n, p)] == g[p]
  }

  /** The value the cellular automaton reads at `p`: out-of-bounds positions
      count as NEUTRAL (`getValue`). */
  function GetValue(n: nat, g: map<Pos, Owner>, p: Pos): (o: Owner)
    requires IsGrid(n, g)
    ensures !InBounds(n, p) ==> o == Neutral
    ensures InBounds(n, p) ==> o == g[p]
  {
    if !InBounds(n, p) then Neutral else g[p]
  }

  /** A playable position: on the board and not VOID (`isInside`). */
  predicate IsInside(n: nat, g: map<Pos, Owner>, p: Pos)
    requires IsGrid(n, g)
  {
    InBounds(n, p) && g[p] != Void
  }

  /** Four-directional adjacency. */
  predicate Adjacent(p: Pos, q: Pos)
  {
    (p.x == q.x && (p.y - q.y == 1 || q.y - p.y == 1))
    || (p.y == q.y && (p.x - q.x == 1 || q.x - p.x == 1))
  }

  lemma AdjacentSymmetric(p: Pos, q: Pos)
    ensures Adjacent(p, q) <==> Adjacent(q, p)
  {
  }

  /** Rotating the board keeps adjacent cells adjacent. */
  lemma AdjacentMirror(n: nat, p: Pos, q: Pos)
    requires Adjacent(p, q)
    ensures Adjacent(Mirror(n, p), Mirror(n, q))
  {
  }
}

=== FILE: ledger.dfy ===
/**
  The per-turn gold delta of a player (`computeGold`): income from active
  cells and active mines, less the upkeep of live units.
 */
module Ledger {
  import opened Grid
  import opened Registry
  import opened State

  /** The cells `p` owns that are active. */
  function ActiveCells(s: Game, p: nat): (r: set<Pos>)
    ensures forall c :: c in r <==> c in s.cells && s.cells[c].owner == Player(p) && s.cells[c].active
  {
    set c | c in s.cells && s.cells[c].owner == Player(p) && s.cells[c].active
  }

  /** A mine of `p` standing on an active cell. */
  predicate IsActiveMine(s: Game, b: Building, p: nat)
  {
    b.owner == p && b.kind == Mine && b.pos in s.cells && s.cells[b.pos].active
  }

  /** How many of `bs` are active mines of `p`. */
  function ActiveMines(s: Game, bs: seq<Building>, p: nat): (k: nat)
    ensures k <= |bs|
    ensures k == 0 <==> forall i :: 0 <= i < |bs| ==> !IsActiveMine(s, bs[i], p)
  {
    if bs == [] then 0
    else ActiveMines(s, bs[..|bs| - 1], p) + (if IsActiveMine(s, bs[|bs| - 1], p) then 1 else 0)
  }

  /** What a unit costs `p` per turn: its level's upkeep if it is a live
      unit of `p`, nothing otherwise. */
  function UpkeepWeight(rules: Rules, p: nat): Unit -> int
  {
    (v: Unit) => if v.alive && v.owner == p && v.level < |rules.unitUpkeep| then rules.unitUpkeep[v.level] else 0
  }

  /** The total upkeep `p` pays for the units of `us`. */
  function Upkeep(rules: Rules, us: seq<Unit>, p: nat): int
  {
    SumOf(us, UpkeepWeight(rules, p))
  }

  /** The levels of `p`'s live units index the upkeep table. */
  predicate UpkeepDefined(rules: Rules, us: seq<Unit>, p: nat)
  {
    forall v :: v in us && v.owner == p && v.alive ==> v.level < |rules.unitUpkeep|
  }

  /** The net change of `p`'s gold in one turn. */
  function Delta(rules: Rules, s: Game, p: nat): int
  {
    rules.cellIncome * |ActiveCells(s, p)| + rules.mineIncome * ActiveMines(s, s.buildings, p) - Upkeep(rules, s.units, p)
  }

  /** The registry is a `HashMap`, whose iteration order is unspecified:
      two registries holding the same units give the same delta. */
  lemma DeltaOrderIndependent(rules: Rules, s: Game, t: Game, p: nat)
    requires t == s.(units := t.units) && multiset(s.units) == multiset(t.units)
    ensures Delta(rules, s, p) == Delta(rules, t, p)
  {
    SumPermutation(s.units, t.units, UpkeepWeight(rules, p));
    MinesIgnoreUnits(s, t, s.buildings, p);
  }

  /** Counting active mines reads the cells only. */
  lemma {:induction false} MinesIgnoreUnits(s: Game, t: Game, bs: seq<Building>, p: nat)
    requires t.cells == s.cells
    ensures ActiveMines(s, bs, p) == ActiveMines(t, bs, p)
    decreases |bs|
  {
    if bs != [] {
      MinesIgnoreUnits(s, t, bs[..|bs| - 1], p);
    }
  }

  /** `computeGold(p)`: adds the cell income once per active cell of `p`,
      scanning columns then rows, the mine income once per active mine of
      `p`, and subtracts the upkeep of every live unit of `p`. The counter of
      `p` ends up changed by exactly `Delta`; nothing else changes. */
  method ComputeGold(rules: Rules, s: Game, p: nat) returns (r: Game)
    requires IsBoard(s) && p < |s.gold|
    requires UpkeepDefined(rules, s.units, p)
    requires forall b :: b in s.buildings ==> b.pos in s.cells
    ensures r == s.(gold := s.gold[p := s.gold[p] + Delta(rules, s, p)])
  {
    var total := CellIncome(rules, s, p);
    total := MineIncome(rules, s, p, total);
    total := PayUpkeep(rules, s, p, total);
    r := s.(gold := s.gold[p := total]);
  }

  /** The second loop of `computeGold`: the mine income once per active
      mine of `p`. */
  method MineIncome(rules: Rules, s: Game, p: nat, base: int) returns (total: int)
    requires forall b :: b in s.buildings ==> b.pos in s.cells
    ensures total == base + rules.mineIncome * ActiveMines(s, s.buildings, p)
  {
    total := base;
    var i := 0;
    while i < |s.buildings|
      invariant 0 <= i <= |s.buildings|
      invariant total == base + rules.mineIncome * ActiveMines(s, s.buildings[..i], p)
    {
      assert s.buildings[..i + 1][..i] == s.buildings[..i];
      assert s.buildings[i] in s.buildings;
      if s.buildings[i].owner == p && s.buildings[i].kind == Mine && s.cells[s.buildings[i].pos].active {
        total := total + rules.mineIncome;
      }
      i := i + 1;
    }
    assert s.buildings[..i] == s.buildings;
  }

  /** The third loop of `computeGold`: the upkeep of every live unit of
      `p`. */
  method PayUpkeep(rules: Rules, s: Game, p: nat, base: int) returns (total: int)
    requires UpkeepDefined(rules, s.units, p)
    ensures total == base - Upkeep(rules, s.units, p)
  {
    total := base;
    var j := 0;
    while j < |s.units|
      invariant 0 <= j <= |s.units|
      invariant total == base - Upkeep(rules, s.units[..j], p)
    {
      var v := s.units[j];
      assert s.units[..j + 1][..j] == s.units[..j];
      assert v in s.units;
      if v.owner == p && v.alive {
        total := total - rules.unitUpkeep[v.level];
      }
      j := j + 1;
    }
    assert s.units[..j] == s.units;
  }

  /** The cells of `ActiveCells` the scan has passed before reaching
      (x, y). */
  function Scanned(s: Game, p: nat, x: int, y: int): set<Pos>
  {
    set c | c in ActiveCells(s, p) && (c.x < x || (c.x == x && c.y < y))
  }

  /** The first loop of `computeGold`: `p`'s counter plus the cell income
      of every active cell of `p`. */
  method CellIncome(rules: Rules, s: Game, p: nat) returns (total: int)
    requires IsBoard(s) && p < |s.gold|
    ensures total == s.gold[p] + rules.cellIncome * |ActiveCells(s, p)|
  {
    total := s.gold[p];
    var x := 0;
    while x < s.n
      invariant 0 <= x <= s.n
      invariant total == s.gold[p] + rules.cellIncome * |Scanned(s, p, x, 0)|
    {
      total := ColumnIncome(rules, s, p, x, total);
      assert total == s.gold[p] + rules.cellIncome * |Scanned(s, p, x + 1, 0)| by {
        var a := |Scanned(s, p, x, 0)|;
        var b := |Scanned(s, p, x + 1, 0)|;
        assert rules.cellIncome * a + rules.cellIncome * (b - a) == rules.cellIncome * b;
      }
      x := x + 1;
    }
    ScannedAll(s, p);
  }

  /** The inner loop of the first loop of `computeGold`: the cell income of
      the active cells of `p` in column `x`. */
  method ColumnIncome(rules: Rules, s: Game, p: nat, x: int, base: int) returns (total: int)
    requires IsBoard(s) && 0 <= x < s.n
    ensures total == base + rules.cellIncome * (|Scanned(s, p, x + 1, 0)| - |Scanned(s, p, x, 0)|)
  {
    total := base;
    ghost var k := 0;
    var y := 0;
    while y < s.n
      invariant 0 <= y <= s.n
      invariant k == |Scanned(s, p, x, y)| - |Scanned(s, p, x, 0)|
      invariant total == base + rules.cellIncome * k
    {
      ScannedStep(s, p, x, y);
      if s.cells[Pos(x, y)].owner == Player(p) && s.cells[Pos(x, y)].active {
        total := total + rules.cellIncome;
        assert rules.cellIncome * (k + 1) == rules.cellIncome * k + rules.cellIncome;
        k := k + 1;
      }
      y := y + 1;
    }
    ScannedColumn(s, p, x);
  }

  lemma ScannedStep(s: Game, p: nat, x: int, y: int)
    ensures Pos(x, y) !in Scanned(s, p, x, y)
    ensures Scanned(s, p, x, y + 1)
      == Scanned(s, p, x, y) + (if Pos(x, y) in ActiveCells(s, p) then {Pos(x, y)} else {})
  {
  }

  lemma ScannedColumn(s: Game, p: nat, x: int)
    requires IsBoard(s)
    ensures Scanned(s, p, x, s.n) == Scanned(s, p, x + 1, 0)
  {
  }

  lemma ScannedAll(s: Game, p: nat)
    requires IsBoard(s)
    ensures Scanned(s, p, s.n, 0) == ActiveCells(s, p)
  {
  }
}

=== FILE: neighbours.dfy ===
/**
  The neighbour links every cell receives once the map is final
  (`computeNeighbours`): up to four links, in the order UP, RIGHT, DOWN,
  LEFT, each present only when the cell on that side is on the board and
  not VOID.
 */
module Neighbours {
  import opened Grid

  /** The links of the cell at `p`. VOID cells get links as well: only the
      target of a link is checked. */
  function CellLinks(n: nat, g: map<Pos, Owner>, p: Pos): (s: seq<Pos>)
    requires IsGrid(n, g)
    ensures forall q :: q in s <==> Adjacent(p, q) && IsInside(n, g, q)
    ensures |s| <= 4
    ensures forall i, j :: 0 <= i < j < |s| ==> s[i] != s[j]
  {
    var up := Pos(p.x, p.y - 1);
    var right := Pos(p.x + 1, p.y);
    var down := Pos(p.x, p.y + 1);
    var left := Pos(p.x - 1, p.y);
    (if IsInside(n, g, up) then [up] else [])
    + (if IsInside(n, g, right) then [right] else [])
    + (if IsInside(n, g, down) then [down] else [])
    + (if IsInside(n, g, left) then [left] else [])
  }

  /** Links of every cell of the board. */
  function ComputeNeighbours(n: nat, g: map<Pos, Owner>): (links: map<Pos, seq<Pos>>)
    requires IsGrid(n, g)
    ensures links.Keys == g.Keys
    ensures forall p, q :: p in links ==> (q in links[p] <==> Adjacent(p, q) && IsInside(n, g, q))
  {
    map p | p in g :: CellLinks(n, g, p)
  }

  /** Well-formed links: one entry per cell, every target a non-VOID cell of
      the board adjacent to its source. */
  ghost predicate LinksOf(n: nat, g: map<Pos, Owner>, links: map<Pos, seq<Pos>>)
    requires IsGrid(n, g)
  {
    && links.Keys == g.Keys
    && (forall p, q :: p in links ==> (q in links[p] <==> Adjacent(p, q) && IsInside(n, g, q)))
  }

  /** Between two non-VOID cells the links go both ways, so the link graph
      restricted to playable cells is undirected. */
  lemma LinksSymmetric(n: nat, g: map<Pos, Owner>, links: map<Pos, seq<Pos>>, p: Pos, q: Pos)
    requires IsGrid(n, g) && LinksOf(n, g, links)
    requires IsInside(n, g, p) && IsInside(n, g, q)
    ensures q in links[p] <==> p in links[q]
  {
    AdjacentSymmetric(p, q);
  }

  /** No link ever leads off the board or into a VOID cell. */
  lemma LinksStayInside(n: nat, g: map<Pos, Owner>, links: map<Pos, seq<Pos>>, p: Pos, i: int)
    requires IsGrid(n, g) && LinksOf(n, g, links)
    requires p in links && 0 <= i < |links[p]|
    ensures InBounds(n, links[p][i]) && g[links[p][i]] != Void
  {
    var q := links[p][i];
    assert q in links[p];
    assert Adjacent(p, q) && IsInside(n, g, q);
  }
}

=== FILE: paths.dfy ===
/**
  Connectivity of NEUTRAL terrain under four-directional adjacency: the
  graph the component finder explores and the corridor carver repairs.
 */
module Paths {
  import opened Grid

  /** `s` is a walk of NEUTRAL cells, each step to a 4-adjacent cell. */
  ghost predicate IsPath(g: map<Pos, Owner>, s: seq<Pos>)
  {
    && |s| > 0
    && (forall i :: 0 <= i < |s| ==> s[i] in g && g[s[i]] == Neutral)
    && (forall i :: 1 <= i < |s| ==> Adjacent(s[i - 1], s[i]))
  }

  /** `a` and `b` are joined by a path of NEUTRAL cells. */
  ghost predicate Connected(g: map<Pos, Owner>, a: Pos, b: Pos)
  {
    exists s :: IsPath(g, s) && s[0] == a && s[|s| - 1] == b
  }

  predicate IsNeutral(g: map<Pos, Owner>, p: Pos)
  {
    p in g && g[p] == Neutral
  }

  /** A set of cells with no NEUTRAL neighbour outside it. */
  ghost predicate Closed(g: map<Pos, Owner>, c: set<Pos>)
  {
    forall a, b :: a in c && IsNeutral(g, b) && Adjacent(a, b) ==> b in c
  }

  lemma ConnectedRefl(g: map<Pos, Owner>, a: Pos)
    requires IsNeutral(g, a)
    ensures Connected(g, a, a)
  {
    assert IsPath(g, [a]);
  }

  lemma ConnectedStep(g: map<Pos, Owner>, a: Pos, b: Pos, c: Pos)
    requires Connected(g, a, b) && Adjacent(b, c) && IsNeutral(g, c)
    ensures Connected(g, a, c)
  {
    var s :| IsPath(g, s) && s[0] == a && s[|s| - 1] == b;
    assert IsPath(g, s + [c]);
    assert (s + [c])[0] == a;
  }

  lemma ConnectedSym(g: map<Pos, Owner>, a: Pos, b: Pos)
    requires Connected(g, a, b)
    ensures Connected(g, b, a)
  {
    var s :| IsPath(g, s) && s[0] == a && s[|s| - 1] == b;
    var t := seq(|s|, i requires 0 <= i < |s| => s[|s| - 1 - i]);
    forall i | 1 <= i < |t|
      ensures Adjacent(t[i - 1], t[i])
    {
      AdjacentSymmetric(s[|s| - 1 - i], s[|s| - i]);
    }
    assert IsPath(g, t);
  }

  lemma ConnectedTrans(g: map<Pos, Owner>, a: Pos, b: Pos, c: Pos)
    requires Connected(g, a, b) && Connected(g, b, c)
    ensures Connected(g, a, c)
  {
    var s :| IsPath(g, s) && s[0] == a && s[|s| - 1] == b;
    var t :| IsPath(g, t) && t[0] == b && t[|t| - 1] == c;
    var u := s + t[1..];
    forall i | 1 <= i < |u|
      ensures Adjacent(u[i - 1], u[i])
    {
      if i >= |s| {
        assert u[i] == t[i - |s| + 1];
        assert u[i - 1] == t[i - |s|];
      }
    }
    assert IsPath(g, u);
    assert u[|u| - 1] == c;
  }

  /** Paths survive any change that keeps NEUTRAL cells NEUTRAL. */
  lemma ConnectedMono(g: map<Pos, Owner>, h: map<Pos, Owner>, a: Pos, b: Pos)
    requires forall p :: IsNeutral(g, p) ==> IsNeutral(h, p)
    requires Connected(g, a, b)
    ensures Connected(h, a, b)
  {
    var s :| IsPath(g, s) && s[0] == a && s[|s| - 1] == b;
    assert forall i :: 0 <= i < |s| ==> IsNeutral(g, s[i]);
    assert IsPath(h, s);
  }

  /** On a point-symmetric board the rotation of a path is a path. */
  lemma ConnectedMirror(n: nat, g: map<Pos, Owner>, a: Pos, b: Pos)
    requires Symmetric(n, g)
    requires Connected(g, a, b)
    ensures Connected(g, Mirror(n, a), Mirror(n, b))
  {
    var s :| IsPath(g, s) && s[0] == a && s[|s| - 1] == b;
    var t := seq(|s|, i requires 0 <= i < |s| => Mirror(n, s[i]));
    forall i | 1 <= i < |t|
      ensures Adjacent(t[i - 1], t[i])
    {
      AdjacentMirror(n, s[i - 1], s[i]);
    }
    assert IsPath(g, t);
  }

  /** A closed set that contains the start of a path contains all of it. */
  lemma {:induction false} PathStaysInClosed(g: map<Pos, Owner>, c: set<Pos>, s: seq<Pos>)
    requires Closed(g, c) && IsPath(g, s) && s[0] in c
    ensures s[|s| - 1] in c
    decreases |s|
  {
    if |s| > 1 {
      var s' := s[..|s| - 1];
      assert IsPath(g, s');
      PathStaysInClosed(g, c, s');
      assert Adjacent(s[|s| - 2], s[|s| - 1]);
      assert IsNeutral(g, s[|s| - 1]);
    }
  }

  lemma ConnectedClosed(g: map<Pos, Owner>, c: set<Pos>, a: Pos, b: Pos)
    requires Closed(g, c) && a in c && Connected(g, a, b)
    ensures b in c
  {
    var s :| IsPath(g, s) && s[0] == a && s[|s| - 1] == b;
    PathStaysInClosed(g, c, s);
  }

  /** A fully NEUTRAL stretch of row `y` joins its two ends. */
  lemma {:induction false} RowConnected(g: map<Pos, Owner>, y: int, x0: int, x1: int)
    requires x0 <= x1
    requires forall x :: x0 <= x <= x1 ==> IsNeutral(g, Pos(x, y))
    ensures Connected(g, Pos(x0, y), Pos(x1, y))
    decreases x1 - x0
  {
    if x0 == x1 {
      ConnectedRefl(g, Pos(x0, y));
    } else {
      RowConnected(g, y, x0, x1 - 1);
      ConnectedStep(g, Pos(x0, y), Pos(x1 - 1, y), Pos(x1, y));
    }
  }

  /** A fully NEUTRAL stretch of column `x` joins its two ends. */
  lemma {:induction false} ColumnConnected(g: map<Pos, Owner>, x: int, y0: int, y1: int)
    requires y0 <= y1
    requires forall y :: y0 <= y <= y1 ==> IsNeutral(g, Pos(x, y))
    ensures Connected(g, Pos(x, y0), Pos(x, y1))
    decreases y1 - y0
  {
    if y0 == y1 {
      ConnectedRefl(g, Pos(x, y0));
    } else {
      ColumnConnected(g, x, y0, y1 - 1);
      ConnectedStep(g, Pos(x, y0), Pos(x, y1 - 1), Pos(x, y1));
    }
  }
}

=== FILE: registry.dfy ===
/**
  The registry of live units (`units`, a hash map keyed by unit id).

  It is held here as a sequence whose ids are pairwise distinct. The order
  of the sequence stands for the map's iteration order, which the game never
  relies on: every quantity computed from the registry is a sum that does
  not depend on that order (`SumPermutation`).
 */
module Registry {
  import opened Grid

  datatype Option<T> = None | Some(value: T)

  /** A unit: its id, owning player, level (an index into the cost and
      upkeep tables), the cell it stands on, and its liveness flag. */
  datatype Unit = Unit(id: int, owner: nat, level: nat, pos: Pos, alive: bool)

  /** No two entries share an id, as in a map. */
  predicate DistinctIds(us: seq<Unit>)
  {
    forall i, j :: 0 <= i < j < |us| ==> us[i].id != us[j].id
  }

  /** Some entry has id `id` (`containsKey`). */
  predicate Registered(us: seq<Unit>, id: int)
  {
    exists i :: 0 <= i < |us| && us[i].id == id
  }

  /** The entry registered under `id` (`get`). */
  function Lookup(us: seq<Unit>, id: int): (v: Unit)
    requires Registered(us, id)
    ensures v in us && v.id == id
  {
    if us[0].id == id then us[0] else Lookup(us[1..], id)
  }

  /** `getUnit(id)`: the unit registered under `id`, or nothing (Java's
      `null`) when no unit has that id. */
  function GetUnit(us: seq<Unit>, id: int): (v: Option<Unit>)
    ensures v.None? <==> !Registered(us, id)
    ensures v.Some? ==> v.value in us && v.value.id == id
  {
    if us == [] then None
    else if us[0].id == id then Some(us[0])
    else
      var rest := GetUnit(us[1..], id);
      assert forall i :: 0 < i < |us| ==> us[i] == us[1..][i - 1];
      rest
  }

  /** With distinct ids an entry is the one registered under its id. */
  lemma LookupUnique(us: seq<Unit>, v: Unit)
    requires DistinctIds(us) && v in us
    ensures Registered(us, v.id) && Lookup(us, v.id) == v
  {
    var i :| 0 <= i < |us| && us[i] == v;
    var w := Lookup(us, v.id);
    var j :| 0 <= j < |us| && us[j] == w;
    assert i == j;
  }

  /** The entries selected by `keep`, in registry order. Removing from the
      registry every unit of a collected list, one `remove` per unit, is
      this filter. */
  function Filter(us: seq<Unit>, keep: Unit -> bool): (r: seq<Unit>)
    ensures forall v :: v in r <==> v in us && keep(v)
    ensures |r| <= |us|
    ensures DistinctIds(us) ==> DistinctIds(r)
  {
    if us == [] then []
    else
      var rest := Filter(us[1..], keep);
      assert DistinctIds(us) ==> forall v :: v in rest ==> v.id != us[0].id by {
        if DistinctIds(us) {
          forall v | v in rest
            ensures v.id != us[0].id
          {
            var i :| 0 <= i < |us[1..]| && us[1..][i] == v;
            assert us[i + 1] == v;
          }
        }
      }
      (if keep(us[0]) then [us[0]] else []) + rest
  }

  /** `remove(id)`: the registry without the entry for `id`, if any. */
  function Remove(us: seq<Unit>, id: int): (r: seq<Unit>)
    ensures forall v :: v in r <==> v in us && v.id != id
    ensures !Registered(r, id)
    ensures DistinctIds(us) ==> DistinctIds(r)
  {
    var r := Filter(us, (v: Unit) => v.id != id);
    assert forall i :: 0 <= i < |r| ==> r[i] in r;
    r
  }

  /** `put(u.id, u)`: replaces the entry with the same id in place, or
      appends a new one. */
  function Put(us: seq<Unit>, u: Unit): (r: seq<Unit>)
    requires DistinctIds(us)
    ensures DistinctIds(r)
    ensures forall v :: v in r <==> v == u || (v in us && v.id != u.id)
    ensures Registered(r, u.id) && Lookup(r, u.id) == u
  {
    if us == [] then
      LookupUnique([u], u);
      [u]
    else if us[0].id == u.id then
      PutReplacesHead(us, u);
      LookupUnique([u] + us[1..], u);
      [u] + us[1..]
    else
      var rest := Put(us[1..], u);
      PutKeepsHead(us, u, rest);
      LookupUnique([us[0]] + rest, u);
      [us[0]] + rest
  }

  lemma PutReplacesHead(us: seq<Unit>, u: Unit)
    requires DistinctIds(us) && us != [] && us[0].id == u.id
    ensures DistinctIds([u] + us[1..])
    ensures forall v :: v in [u] + us[1..] <==> v == u || (v in us && v.id != u.id)
  {
    var r := [u] + us[1..];
    forall i, j | 0 <= i < j < |r|
      ensures r[i].id != r[j].id
    {
      assert r[j] == us[j];
      if i > 0 {
        assert r[i] == us[i];
      }
    }
    forall v | v in us && v.id != u.id
      ensures v in r
    {
      var k :| 0 <= k < |us| && us[k] == v;
      assert k > 0 && r[k] == v;
    }
    forall v | v in r && v != u
      ensures v in us && v.id != u.id
    {
      var k :| 0 <= k < |r| && r[k] == v;
      assert k > 0 && us[k] == v;
    }
  }

  lemma PutKeepsHead(us: seq<Unit>, u: Unit, rest: seq<Unit>)
    requires DistinctIds(us) && us != [] && us[0].id != u.id
    requires DistinctIds(rest)
    requires forall v :: v in rest <==> v == u || (v in us[1..] && v.id != u.id)
    ensures DistinctIds([us[0]] + rest)
    ensures forall v :: v in [us[0]] + rest <==> v == u || (v in us && v.id != u.id)
  {
    forall v | v in rest
      ensures v.id != us[0].id
    {
      if v != u {
        var i :| 0 <= i < |us[1..]| && us[1..][i] == v;
        assert us[i + 1] == v;
      }
    }
    var r := [us[0]] + rest;
    forall i, j | 0 <= i < j < |r|
      ensures r[i].id != r[j].id
    {
      assert r[j] == rest[j - 1] && r[j] in rest;
      if i > 0 {
        assert r[i] == rest[i - 1];
      }
    }
    assert us == [us[0]] + us[1..];
  }

  /** The sum of `w(v)` over the entries `v` of the registry, accumulated
      from the first entry to the last. */
  function SumOf(us: seq<Unit>, w: Unit -> int): (r: int)
    ensures (forall v :: v in us ==> w(v) == 0) ==> r == 0
    ensures (forall v :: v in us ==> w(v) >= 0) ==> r >= 0
  {
    if us == [] then 0 else SumOf(us[..|us| - 1], w) + w(us[|us| - 1])
  }

  lemma {:induction false} SumAppend(a: seq<Unit>, b: seq<Unit>, w: Unit -> int)
    ensures SumOf(a + b, w) == SumOf(a, w) + SumOf(b, w)
    decreases |b|
  {
    if b == [] {
      assert a + b == a;
    } else {
      var b' := b[..|b| - 1];
      assert (a + b)[..|a + b| - 1] == a + b';
      SumAppend(a, b', w);
    }
  }

  /** Sums over the registry do not depend on the order of its entries. */
  lemma {:induction false} SumPermutation(a: seq<Unit>, b: seq<Unit>, w: Unit -> int)
    requires multiset(a) == multiset(b)
    ensures SumOf(a, w) == SumOf(b, w)
    decreases |a|
  {
    if a != [] {
      var x := a[|a| - 1];
      var a' := a[..|a| - 1];
      assert a == a' + [x];
      assert x in multiset(b);
      var k :| 0 <= k < |b| && b[k] == x;
      var b' := b[..k] + b[k + 1..];
      assert b == b[..k] + [x] + b[k + 1..];
      assert multiset(a) == multiset(a') + multiset{x};
      assert multiset(b) == multiset(b[..k]) + multiset{x} + multiset(b[k + 1..]);
      assert multiset(b') == multiset(b[..k]) + multiset(b[k + 1..]);
      assert multiset(a') == multiset(a) - multiset{x};
      assert multiset(b') == multiset(b) - multiset{x};
      SumPermutation(a', b', w);
      SumAppend(b[..k] + [x], b[k + 1..], w);
      SumAppend(b[..k], [x], w);
      SumAppend(b[..k], b[k + 1..], w);
      assert SumOf([x], w) == w(x) by {
        assert [x][..0] == [];
      }
    } else {
      assert b == [];
    }
  }

  /** Filtering splits a sum: the kept entries plus the dropped ones. */
  lemma {:induction false} SumFilter(us: seq<Unit>, keep: Unit -> bool, w: Unit -> int)
    requires forall v :: v in us && !keep(v) ==> w(v) == 0
    ensures SumOf(Filter(us, keep), w) == SumOf(us, w)
    decreases |us|
  {
    if us != [] {
      var rest := Filter(us[1..], keep);
      SumFilter(us[1..], keep, w);
      var head := if keep(us[0]) then [us[0]] else [];
      assert Filter(us, keep) == head + rest;
      SumAppend(head, rest, w);
      assert us == [us[0]] + us[1..];
      SumAppend([us[0]], us[1..], w);
      assert SumOf([us[0]], w) == w(us[0]) by {
        assert [us[0]][..0] == [];
      }
      if keep(us[0]) {
        assert SumOf(head, w) == w(us[0]);
      }
    }
  }
}

=== FILE: scores.dfy ===
/**
  Final scores (`getScores`): each player's gold plus the training cost of
  every unit the player has in the registry.
 */
module Scores {
  import opened Grid
  import opened Registry
  import opened State
  import opened Turn

  /** What a unit is worth to player `q`: its level's training cost if `q`
      owns it, alive or not. */
  function CostWeight(rules: Rules, q: nat): Unit -> int
  {
    (v: Unit) => if v.owner == q && v.level < |rules.unitCost| then rules.unitCost[v.level] else 0
  }

  /** The training cost of all units `q` owns in `us`. */
  function Worth(rules: Rules, us: seq<Unit>, q: nat): int
  {
    SumOf(us, CostWeight(rules, q))
  }

  /** Every unit's owner and level index the gold and cost tables. */
  predicate Scorable(rules: Rules, s: Game)
  {
    forall v :: v in s.units ==> v.owner < |s.gold| && v.level < |rules.unitCost|
  }

  /** The score of every player: gold plus worth of the registered units. */
  function ScoresOf(rules: Rules, s: Game): (scores: seq<int>)
    ensures |scores| == |s.gold|
    ensures forall q :: 0 <= q < |s.gold| ==> scores[q] - s.gold[q] == Worth(rules, s.units, q)
  {
    seq(|s.gold|, q requires 0 <= q < |s.gold| => s.gold[q] + Worth(rules, s.units, q))
  }

  /** The scores do not depend on the iteration order of the registry. */
  lemma ScoresOrderIndependent(rules: Rules, s: Game, t: Game)
    requires t == s.(units := t.units) && multiset(s.units) == multiset(t.units)
    ensures ScoresOf(rules, s) == ScoresOf(rules, t)
  {
    forall q | 0 <= q < |s.gold|
      ensures ScoresOf(rules, s)[q] == ScoresOf(rules, t)[q]
    {
      SumPermutation(s.units, t.units, CostWeight(rules, q));
    }
  }

  /** Wiping out the army of `p` leaves every other player's score as it
      was: only units of `p` leave the registry. */
  lemma WipeoutKeepsOtherScores(rules: Rules, s: Game, p: nat, q: nat)
    requires p < |s.gold| && q < |s.gold| && q != p
    ensures ScoresOf(rules, NegativeGoldWipeout(s, p))[q] == ScoresOf(rules, s)[q]
  {
    SumFilter(s.units, IsArmyOf(p), CostWeight(rules, q));
  }

  /** Killing the separated units of `p` leaves every other player's score
      as it was. */
  lemma SeparationKeepsOtherScores(rules: Rules, s: Game, p: nat, q: nat)
    requires q < |s.gold| && q != p
    ensures ScoresOf(rules, KillSeparatedUnits(s, p))[q] == ScoresOf(rules, s)[q]
  {
    SumFilter(s.units, StaysAlive(s.cells, p), CostWeight(rules, q));
  }

  /** The loop shared by both versions of `getScores`: starting from
      `base`, adds each registered unit's cost to its owner's entry. */
  method AddUnitCosts(rules: Rules, units: seq<Unit>, base: seq<int>) returns (scores: seq<int>)
    requires forall v :: v in units ==> v.owner < |base| && v.level < |rules.unitCost|
    ensures |scores| == |base|
    ensures forall q :: 0 <= q < |base| ==> scores[q] == base[q] + Worth(rules, units, q)
  {
    scores := base;
    var i := 0;
    while i < |units|
      invariant 0 <= i <= |units|
      invariant |scores| == |base|
      invariant forall q :: 0 <= q < |base| ==> scores[q] == base[q] + Worth(rules, units[..i], q)
    {
      var v := units[i];
      assert v in units;
      forall q | 0 <= q < |base|
        ensures Worth(rules, units[..i + 1], q) == Worth(rules, units[..i], q) + CostWeight(rules, q)(v)
      {
        assert units[..i + 1] == units[..i] + [v];
        SumAppend(units[..i], [v], CostWeight(rules, q));
      }
      scores := scores[v.owner := scores[v.owner] + rules.unitCost[v.level]];
      i := i + 1;
    }
    assert units[..i] == units;
  }

  /** `getScores`, as written: the returned list holds the very counters
      of the game, so adding the unit costs to it also adds them to the
      stored gold. The result is the score of every player, and the game
      afterwards holds those scores as its gold. */
  method GetScores(rules: Rules, s: Game) returns (scores: seq<int>, r: Game)
    requires Scorable(rules, s)
    ensures |scores| == |s.gold|
    ensures forall q :: 0 <= q < |s.gold| ==> scores[q] == s.gold[q] + Worth(rules, s.units, q)
    ensures r == s.(gold := scores)
  {
    scores := AddUnitCosts(rules, s.units, s.gold);
    r := s.(gold := scores);
  }

  /** Reading the scores of the aliased version twice counts every unit
      twice. */
  lemma ScoresCountTwice(rules: Rules, s: Game, q: nat)
    requires Scorable(rules, s) && q < |s.gold|
    ensures ScoresOf(rules, s.(gold := ScoresOf(rules, s)))[q] == s.gold[q] + 2 * Worth(rules, s.units, q)
  {
  }

  /** A concrete game where it shows: one player with 10 gold and one
      level-1 unit costing 10 scores 20, and the gold left behind is 20,
      so a second reading gives 30. */
  lemma ScoresDriftExample()
    ensures var rules := Rules(1, 1, 4, [0, 10], [0, 1], (k: BuildingKind) => 0);
            var s := Game(1, map[], map[], [], [], [Unit(0, 0, 1, Pos(0, 0), true)], [10]);
            && ScoresOf(rules, s) == [20]
            && ScoresOf(rules, s.(gold := ScoresOf(rules, s))) == [30]
  {
    var rules := Rules(1, 1, 4, [0, 10], [0, 1], (k: BuildingKind) => 0);
    var v := Unit(0, 0, 1, Pos(0, 0), true);
    var s := Game(1, map[], map[], [], [], [v], [10]);
    assert Worth(rules, s.units, 0) == 10 by {
      assert s.units == [] + [v];
      SumAppend([], [v], CostWeight(rules, 0));
    }
  }

  /** `getScores` with the evidently intended copy of the counters: the
      same scores, and the game is left as it was. */
  method GetScoresCopy(rules: Rules, s: Game) returns (scores: seq<int>, r: Game)
    requires Scorable(rules, s)
    ensures |scores| == |s.gold|
    ensures forall q :: 0 <= q < |s.gold| ==> scores[q] == s.gold[q] + Worth(rules, s.units, q)
    ensures r == s
  {
    scores := AddUnitCosts(rules, s.units, s.gold);
    r := s;
  }
}

=== FILE: state.dfy ===
/**
  The game state once the map is generated: the board of cells with their
  neighbour links, the two HQs (kept apart from the other buildings), the
  list of other buildings, the unit registry and one gold counter per
  player, together with the constant tables that price everything.
 */
module State {
  import opened Grid
  import opened Registry

  datatype BuildingKind = Hq | Mine | Tower

  /** A building: its owning player, kind and cell. */
  datatype Building = Building(owner: nat, kind: BuildingKind, pos: Pos)

  /** A cell: its owner, whether it is connected to its owner's HQ, the id
      of the unit it references and the building it references. A killed
      unit's id stays here until the cell is cleared. */
  datatype Cell = Cell(owner: Owner, active: bool, unit: Option<int>, building: Option<Building>)

  /** The game constants: the number of players, the income of an active
      cell and of an active mine, the unit cost and upkeep tables indexed by
      level, and the price of each kind of building. */
  datatype Rules = Rules(
    playerCount: nat,
    cellIncome: int,
    mineIncome: int,
    unitCost: seq<int>,
    unitUpkeep: seq<int>,
    buildingCost: BuildingKind -> int)

  datatype Game = Game(
    n: nat,
    cells: map<Pos, Cell>,
    links: map<Pos, seq<Pos>>,
    hqs: seq<Building>,
    buildings: seq<Building>,
    units: seq<Unit>,
    gold: seq<int>)

  /** The cells are exactly the n x n square. */
  ghost predicate IsBoard(s: Game)
  {
    forall p :: p in s.cells <==> InBounds(s.n, p)
  }

  /** Every cell has a link list and every link leads to a cell. */
  ghost predicate LinksWellFormed(s: Game)
  {
    && s.links.Keys == s.cells.Keys
    && (forall p, q :: p in s.links && q in s.links[p] ==> q in s.cells)
  }

  /** A unit the tables and the board can serve: its cell exists, its owner
      has a gold counter and its level indexes both tables. */
  predicate UnitFits(rules: Rules, s: Game, v: Unit)
  {
    v.pos in s.cells && v.owner < |s.gold| && v.level < |rules.unitCost| && v.level < |rules.unitUpkeep|
  }

  predicate BuildingFits(s: Game, b: Building)
  {
    b.pos in s.cells && b.owner < |s.gold|
  }

  /** The invariant the game keeps between operations: a well-formed board,
      one gold counter per player, and a registry whose every unit stands on
      a cell that it owns and that references it. */
  ghost predicate Consistent(rules: Rules, s: Game)
  {
    && IsBoard(s)
    && LinksWellFormed(s)
    && |s.gold| == rules.playerCount
    && DistinctIds(s.units)
    && (forall v :: v in s.units ==> UnitFits(rules, s, v))
    && (forall v :: v in s.units ==> s.cells[v.pos].unit == Some(v.id) && s.cells[v.pos].owner == Player(v.owner))
    && (forall b :: b in s.buildings ==> BuildingFits(s, b))
    && (forall b :: b in s.hqs ==> BuildingFits(s, b))
    && (forall p :: p in s.cells && s.cells[p].building.Some? ==> s.cells[p].building.value.pos == p)
  }

  /** A fresh game on a generated board: every cell keeps its terrain, is
      inactive and empty, and every player starts with twice the cost of a
      level-1 unit. */
  function NewGame(rules: Rules, n: nat, terrain: map<Pos, Owner>, links: map<Pos, seq<Pos>>): (s: Game)
    requires IsGrid(n, terrain) && |rules.unitCost| > 1
    requires links.Keys == terrain.Keys && forall p, q :: p in links && q in links[p] ==> q in terrain
    ensures Consistent(rules, s)
    ensures s.units == [] && s.buildings == [] && s.hqs == []
    ensures s.cells.Keys == terrain.Keys && s.n == n && s.links == links
    ensures forall p :: p in s.cells ==> s.cells[p] == Cell(terrain[p], false, None, None)
    ensures |s.gold| == rules.playerCount
    ensures forall i :: 0 <= i < |s.gold| ==> s.gold[i] == 2 * rules.unitCost[1]
  {
    Game(n, map p | p in terrain :: Cell(terrain[p], false, None, None), links, [], [], [],
         seq(rules.playerCount, _ => 2 * rules.unitCost[1]))
  }
}

=== FILE: symmetry.dfy ===
/**
  The passes of the map generator that write fixed cells: the 2x2 origin
  block, the point-symmetry copy and the 3x3 corner blocks.
 */
module Symmetry {
  import opened Grid

  /** The 2x2 block at the origin is made NEUTRAL before the automaton runs. */
  function ForceOrigin(n: nat, g: map<Pos, Owner>): (r: map<Pos, Owner>)
    requires IsGrid(n, g) && n >= 2
    ensures IsGrid(n, r)
    ensures forall p :: p in r && p.x < 2 && p.y < 2 ==> r[p] == Neutral
    ensures forall p :: p in r && (p.x >= 2 || p.y >= 2) ==> r[p] == g[p]
  {
    g[Pos(0, 0) := Neutral][Pos(1, 0) := Neutral][Pos(0, 1) := Neutral][Pos(1, 1) := Neutral]
  }

  /** Iteration (i, j) of the symmetry loop has run before iteration (x, y). */
  predicate Done(x: int, y: int, i: int, j: int)
  {
    i < x || (i == x && j < y)
  }

  /** For a diagonal cell, the one of it and its mirror that the loop reaches
      first; both end up holding that cell's original value. */
  function DiagonalSource(n: nat, q: Pos): (s: Pos)
    ensures s == q || s == Mirror(n, q)
    ensures s.x <= n - 1 - s.x
  {
    if q.x <= n - 1 - q.x then q else Mirror(n, q)
  }

  /** What the symmetry loop has left in cell `q` when it is about to run
      iteration (x, y), given the board `g` it started from. Cells strictly
      below the diagonal are only read; a cell strictly above it is
      overwritten once, by the iteration at its mirror; a diagonal cell and
      its mirror end up both holding the value of the one reached first. */
  function Expected(n: nat, g: map<Pos, Owner>, x: int, y: int, q: Pos): Owner
    requires IsGrid(n, g) && InBounds(n, q)
  {
    if q.y < q.x then g[q]
    else if q.y > q.x then
      (if Done(x, y, n - 1 - q.x, n - 1 - q.y) then g[Mirror(n, q)] else g[q])
    else
      (if Done(x, y, n - 1 - q.x, n - 1 - q.x) then g[DiagonalSource(n, q)] else g[q])
  }

  /** The point-symmetry pass: for every `x` and every `y <= x`, copy cell
      (x, y) onto (n-1-x, n-1-y), in that order. The cells on and below the
      diagonal are the source half; the result is point-symmetric, keeps the
      source half below the diagonal, and resolves each diagonal pair in
      favour of the cell the loop reaches first. */
  method Symmetrize(n: nat, g: map<Pos, Owner>) returns (r: map<Pos, Owner>)
    requires IsGrid(n, g)
    ensures IsGrid(n, r)
    ensures Symmetric(n, r)
    ensures forall q :: q in r && q.y < q.x ==> r[q] == g[q]
    ensures forall q :: q in r && q.y > q.x ==> r[q] == g[Mirror(n, q)]
    ensures forall q :: q in r && q.y == q.x && q.x <= n - 1 - q.x ==> r[q] == g[q]
    ensures forall q :: q in r && q.y == q.x && q.x > n - 1 - q.x ==> r[q] == g[Mirror(n, q)]
  {
    var m := g;
    var x := 0;
    while x < n
      invariant 0 <= x <= n
      invariant m.Keys == g.Keys
      invariant forall q :: q in m ==> m[q] == Expected(n, g, x, 0, q)
    {
      m := SymmetrizeColumn(n, g, m, x);
      x := x + 1;
    }
    r := m;
    SymmetrizeResult(n, g, r);
  }

  /** The inner loop of the symmetry pass for one `x`. */
  method SymmetrizeColumn(n: nat, g: map<Pos, Owner>, m0: map<Pos, Owner>, x: int) returns (m: map<Pos, Owner>)
    requires IsGrid(n, g) && m0.Keys == g.Keys && 0 <= x < n
    requires forall q :: q in m0 ==> m0[q] == Expected(n, g, x, 0, q)
    ensures m.Keys == g.Keys
    ensures forall q :: q in m ==> m[q] == Expected(n, g, x + 1, 0, q)
  {
    m := m0;
    var y := 0;
    while y < x + 1
      invariant 0 <= y <= x + 1
      invariant m.Keys == g.Keys
      invariant forall q :: q in m ==> m[q] == Expected(n, g, x, y, q)
    {
      var src := Pos(x, y);
      var dst := Mirror(n, src);
      StepExpected(n, g, m, x, y);
      m := m[dst := m[src]];
      y := y + 1;
    }
    forall q | q in m
      ensures m[q] == Expected(n, g, x + 1, 0, q)
    {
    }
  }

  /** One iteration of the inner loop moves every cell from its expected
      value before (x, y) to its expected value before (x, y + 1). */
  lemma StepExpected(n: nat, g: map<Pos, Owner>, m: map<Pos, Owner>, x: int, y: int)
    requires IsGrid(n, g) && m.Keys == g.Keys && 0 <= y <= x < n
    requires forall q :: q in m ==> m[q] == Expected(n, g, x, y, q)
    ensures forall q :: q in m ==>
      m[Mirror(n, Pos(x, y)) := m[Pos(x, y)]][q] == Expected(n, g, x, y + 1, q)
  {
    var src := Pos(x, y);
    var dst := Mirror(n, src);
    MirrorInvolution(n, src);
    assert m[src] == Expected(n, g, x, y, src);
    forall q | q in m
      ensures m[dst := m[src]][q] == Expected(n, g, x, y + 1, q)
    {
      if q == dst {
        MirrorInvolution(n, q);
      }
    }
  }

  /** After the last iteration the expected values are the final ones. */
  lemma SymmetrizeResult(n: nat, g: map<Pos, Owner>, r: map<Pos, Owner>)
    requires IsGrid(n, g) && r.Keys == g.Keys
    requires forall q :: q in r ==> r[q] == Expected(n, g, n, 0, q)
    ensures IsGrid(n, r)
    ensures Symmetric(n, r)
    ensures forall q :: q in r && q.y < q.x ==> r[q] == g[q]
    ensures forall q :: q in r && q.y > q.x ==> r[q] == g[Mirror(n, q)]
    ensures forall q :: q in r && q.y == q.x && q.x <= n - 1 - q.x ==> r[q] == g[q]
    ensures forall q :: q in r && q.y == q.x && q.x > n - 1 - q.x ==> r[q] == g[Mirror(n, q)]
  {
    forall q | q in r
      ensures Mirror(n, q) in r && r[Mirror(n, q)] == r[q]
    {
      var mq := Mirror(n, q);
      MirrorInvolution(n, q);
      if q.y == q.x {
        assert DiagonalSource(n, mq) == DiagonalSource(n, q);
      }
    }
  }

  /** A 3x3 block at each corner of the pair: the origin block and its
      mirror. */
  predicate InCornerBlock(n: nat, p: Pos)
  {
    (0 <= p.x < 3 && 0 <= p.y < 3) || (0 <= n - 1 - p.x < 3 && 0 <= n - 1 - p.y < 3)
  }

  /** `p` is written by the corner pass: it is (i, j) or the mirror of
      (i, j) for some i, j below 3. */
  predicate CornerWritten(n: nat, p: Pos)
  {
    exists i, j :: 0 <= i < 3 && 0 <= j < 3 && (p == Pos(i, j) || p == Mirror(n, Pos(i, j)))
  }

  /** Cell (i, j) and its mirror are both NEUTRAL in `r`. */
  predicate PairNeutral(n: nat, r: map<Pos, Owner>, i: int, j: int)
  {
    Pos(i, j) in r && Mirror(n, Pos(i, j)) in r && r[Pos(i, j)] == Neutral && r[Mirror(n, Pos(i, j))] == Neutral
  }

  /** The corner pass: for i and j below 3, cell (i, j) and its mirror are
      set NEUTRAL, one pair at a time; no other cell is written. */
  method CornerBlocks(n: nat, g: map<Pos, Owner>) returns (r: map<Pos, Owner>)
    requires IsGrid(n, g) && n >= 3
    ensures IsGrid(n, r)
    ensures forall i, j :: 0 <= i < 3 && 0 <= j < 3 ==> r[Pos(i, j)] == Neutral && r[Mirror(n, Pos(i, j))] == Neutral
    ensures forall p :: p in g && r[p] != g[p] ==> CornerWritten(n, p)
  {
    r := g;
    var i := 0;
    while i < 3
      invariant 0 <= i <= 3
      invariant IsGrid(n, r)
      invariant forall a, b :: 0 <= a < i && 0 <= b < 3 ==> PairNeutral(n, r, a, b)
      invariant forall p :: p in g && r[p] != g[p] ==> CornerWritten(n, p)
    {
      var j := 0;
      while j < 3
        invariant 0 <= j <= 3
        invariant IsGrid(n, r)
        invariant forall a, b :: (0 <= a < i && 0 <= b < 3) || (a == i && 0 <= b < j) ==> PairNeutral(n, r, a, b)
        invariant forall p :: p in g && r[p] != g[p] ==> CornerWritten(n, p)
      {
        var prev := r;
        r := WritePair(n, g, prev, i, j);
        forall a, b | (0 <= a < i && 0 <= b < 3) || (a == i && 0 <= b <= j)
          ensures PairNeutral(n, r, a, b)
        {
          if a != i || b != j {
            assert PairNeutral(n, prev, a, b);
          }
        }
        j := j + 1;
      }
      i := i + 1;
    }
    forall a, b | 0 <= a < 3 && 0 <= b < 3
      ensures r[Pos(a, b)] == Neutral && r[Mirror(n, Pos(a, b))] == Neutral
    {
      assert PairNeutral(n, r, a, b);
    }
  }

  /** One step of the corner pass: cell (i, j) and its mirror become
      NEUTRAL, cells already NEUTRAL stay so, and only those two cells can
      change. */
  method WritePair(n: nat, g: map<Pos, Owner>, r: map<Pos, Owner>, i: int, j: int) returns (r2: map<Pos, Owner>)
    requires IsGrid(n, g) && IsGrid(n, r) && n >= 3 && 0 <= i < 3 && 0 <= j < 3
    requires forall p :: p in g && r[p] != g[p] ==> CornerWritten(n, p)
    ensures IsGrid(n, r2)
    ensures PairNeutral(n, r2, i, j)
    ensures forall a, b :: PairNeutral(n, r, a, b) ==> PairNeutral(n, r2, a, b)
    ensures forall p :: p in g && r2[p] != g[p] ==> CornerWritten(n, p)
  {
    r2 := r[Pos(i, j) := Neutral][Mirror(n, Pos(i, j)) := Neutral];
    forall p | p in g && r2[p] != g[p]
      ensures CornerWritten(n, p)
    {
      if p == Pos(i, j) || p == Mirror(n, Pos(i, j)) {
        assert 0 <= i < 3 && 0 <= j < 3 && (p == Pos(i, j) || p == Mirror(n, Pos(i, j)));
      }
    }
  }

  /** What the corner pass leaves: exactly the two corner blocks are NEUTRAL
      and every other cell is as it was. */
  lemma CornerBlocksShape(n: nat, g: map<Pos, Owner>, r: map<Pos, Owner>)
    requires IsGrid(n, g) && IsGrid(n, r) && n >= 3
    requires forall i, j :: 0 <= i < 3 && 0 <= j < 3 ==> r[Pos(i, j)] == Neutral && r[Mirror(n, Pos(i, j))] == Neutral
    requires forall p :: p in g && r[p] != g[p] ==> CornerWritten(n, p)
    ensures forall p :: p in r ==> r[p] == (if InCornerBlock(n, p) then Neutral else g[p])
  {
    forall p | p in r
      ensures r[p] == (if InCornerBlock(n, p) then Neutral else g[p])
    {
      if 0 <= p.x < 3 && 0 <= p.y < 3 {
        assert r[Pos(p.x, p.y)] == Neutral;
      } else if InCornerBlock(n, p) {
        assert p == Mirror(n, Pos(n - 1 - p.x, n - 1 - p.y));
      } else if r[p] != g[p] {
        var i, j :| 0 <= i < 3 && 0 <= j < 3 && (p == Pos(i, j) || p == Mirror(n, Pos(i, j)));
        assert false;
      }
    }
  }

  /** The corner blocks are each other's mirror, so the corner pass keeps a
      symmetric terrain board symmetric and terrain. */
  lemma CornerBlocksKeepSymmetry(n: nat, g: map<Pos, Owner>, r: map<Pos, Owner>)
    requires IsGrid(n, g) && IsGrid(n, r) && n >= 3 && Symmetric(n, g) && IsTerrain(g)
    requires forall p :: p in r ==> r[p] == (if InCornerBlock(n, p) then Neutral else g[p])
    ensures Symmetric(n, r) && IsTerrain(r)
  {
    forall p | p in r
      ensures Mirror(n, p) in r && r[Mirror(n, p)] == r[p]
    {
      MirrorInvolution(n, p);
      assert InCornerBlock(n, p) <==> InCornerBlock(n, Mirror(n, p));
    }
  }
}

=== FILE: territory.dfy ===
/**
  Active territory (`computeActiveCells`): a breadth-first search from a
  player's HQ along the neighbour links, through cells that player owns.
 */
module Territory {
  import opened Grid
  import opened Registry
  import opened State

  /** The search may go from `a` to `b` for player `p`: `b` is one of the
      links of `a` and is owned by `p`. */
  ghost predicate Step(s: Game, p: nat, a: Pos, b: Pos)
  {
    a in s.links && b in s.links[a] && b in s.cells && s.cells[b].owner == Player(p)
  }

  /** A walk along such steps. */
  ghost predicate IsWalk(s: Game, p: nat, w: seq<Pos>)
  {
    |w| > 0 && forall i :: 1 <= i < |w| ==> Step(s, p, w[i - 1], w[i])
  }

  /** `c` can be reached from `a` by a walk; every cell but `a` itself is
      then owned by `p`. */
  ghost predicate Reaches(s: Game, p: nat, a: Pos, c: Pos)
  {
    exists w :: IsWalk(s, p, w) && w[0] == a && w[|w| - 1] == c
  }

  /** Two boards that differ at most in their active flags. */
  predicate SameButActive(c0: map<Pos, Cell>, c1: map<Pos, Cell>)
  {
    c1.Keys == c0.Keys && forall c :: c in c0 ==> c1[c] == c0[c].(active := c1[c].active)
  }

  lemma ReachesRefl(s: Game, p: nat, a: Pos)
    ensures Reaches(s, p, a, a)
  {
    assert IsWalk(s, p, [a]);
  }

  lemma ReachesStep(s: Game, p: nat, a: Pos, b: Pos, c: Pos)
    requires Reaches(s, p, a, b) && Step(s, p, b, c)
    ensures Reaches(s, p, a, c)
  {
    var w :| IsWalk(s, p, w) && w[0] == a && w[|w| - 1] == b;
    assert IsWalk(s, p, w + [c]);
    assert (w + [c])[0] == a;
  }

  /** A set of cells containing `a` and closed under steps contains every
      cell reachable from `a`. */
  lemma {:induction false} ClosedReach(s: Game, p: nat, order: seq<Pos>, w: seq<Pos>)
    requires forall a, b :: a in order && Step(s, p, a, b) ==> b in order
    requires IsWalk(s, p, w) && w[0] in order
    ensures w[|w| - 1] in order
    decreases |w|
  {
    if |w| > 1 {
      var w' := w[..|w| - 1];
      assert IsWalk(s, p, w');
      ClosedReach(s, p, order, w');
      assert Step(s, p, w[|w| - 2], w[|w| - 1]);
    }
  }

  /** The invariant of the search from `start` with visit list `order`:
      active flags are the only change; the visit list starts at `start`,
      has no repeats and holds only reachable cells; a cell owned by `p` is
      active exactly when it has been visited, any other cell keeps its
      flag unless it is the start. */
  ghost predicate Searching(s: Game, p: nat, start: Pos, cells: map<Pos, Cell>, order: seq<Pos>)
  {
    && SameButActive(s.cells, cells)
    && |order| > 0 && order[0] == start
    && (forall i, j :: 0 <= i < j < |order| ==> order[i] != order[j])
    && (forall c :: c in order ==> c in s.cells && Reaches(s, p, start, c))
    && (forall c :: c in cells ==> cells[c].active == (c in order || (s.cells[c].owner != Player(p) && s.cells[c].active)))
  }

  /** Every step out of the first `head` visited cells leads to a visited
      cell. */
  ghost predicate Expanded(s: Game, p: nat, order: seq<Pos>, head: int)
  {
    forall i, b :: 0 <= i < head && i < |order| && Step(s, p, order[i], b) ==> b in order
  }

  /** The board at the start of the search: every cell `p` owns is
      inactive, then the start cell is active. */
  function StartBoard(s: Game, p: nat, start: Pos): (cells: map<Pos, Cell>)
    requires start in s.cells
    ensures SameButActive(s.cells, cells)
    ensures Searching(s, p, start, cells, [start])
  {
    var cells := map c | c in s.cells :: if s.cells[c].owner == Player(p) then s.cells[c].(active := false) else s.cells[c];
    ReachesRefl(s, p, start);
    cells[start := cells[start].(active := true)]
  }

  /** `computeActiveCells(p)`: deactivate every cell `p` owns, activate the
      HQ cell, then repeatedly take the oldest queued cell and activate and
      queue each linked cell that is owned by `p` and not yet active.

      Afterwards a cell is active exactly when it is reachable from the HQ
      through cells `p` owns, or it is not `p`'s and was active before;
      nothing but active flags changes; and `order`, the cells in the order
      they were queued, holds each reachable cell exactly once. */
  method ComputeActiveCells(s: Game, p: nat) returns (r: Game, order: seq<Pos>)
    requires LinksWellFormed(s) && p < |s.hqs| && s.hqs[p].pos in s.cells
    ensures r == s.(cells := r.cells)
    ensures SameButActive(s.cells, r.cells)
    ensures forall c :: c in r.cells ==>
      (r.cells[c].active <==> Reaches(s, p, s.hqs[p].pos, c) || (s.cells[c].owner != Player(p) && s.cells[c].active))
    ensures |order| > 0 && order[0] == s.hqs[p].pos
    ensures forall i, j :: 0 <= i < j < |order| ==> order[i] != order[j]
    ensures forall c :: c in order <==> c in s.cells && Reaches(s, p, s.hqs[p].pos, c)
  {
    var start := s.hqs[p].pos;
    var cells := StartBoard(s, p, start);
    order := [start];
    var head := 0;
    while head < |order|
      invariant 0 <= head <= |order|
      invariant Searching(s, p, start, cells, order)
      invariant Expanded(s, p, order, head)
      decreases s.cells.Keys - (set c | c in order), |order| - head
    {
      var cur := order[head];
      ghost var before := order;
      cells, order := VisitLinks(s, p, start, cells, order, cur);
      ExpandedMore(s, p, before, order, head);
      if |order| > |before| {
        assert order[|before|] in s.cells.Keys - (set c | c in before);
        assert order[|before|] !in s.cells.Keys - (set c | c in order);
      } else {
        assert order == before;
      }
      head := head + 1;
    }
    r := s.(cells := cells);
    SearchDone(s, p, start, cells, order);
  }

  lemma ExpandedMore(s: Game, p: nat, before: seq<Pos>, order: seq<Pos>, head: int)
    requires 0 <= head < |before| && before <= order
    requires Expanded(s, p, before, head)
    requires forall b :: Step(s, p, before[head], b) ==> b in order
    ensures Expanded(s, p, order, head + 1)
  {
    forall i, b | 0 <= i < head + 1 && i < |order| && Step(s, p, order[i], b)
      ensures b in order
    {
      assert order[i] == before[i];
      if i < head {
        assert b in before;
      }
    }
  }

  /** When every visited cell has been expanded the visited cells are
      exactly the reachable ones. */
  lemma SearchDone(s: Game, p: nat, start: Pos, cells: map<Pos, Cell>, order: seq<Pos>)
    requires Searching(s, p, start, cells, order)
    requires Expanded(s, p, order, |order|)
    ensures forall c :: c in cells ==>
      (cells[c].active <==> Reaches(s, p, start, c) || (s.cells[c].owner != Player(p) && s.cells[c].active))
    ensures forall c :: c in order <==> c in s.cells && Reaches(s, p, start, c)
  {
    forall a, b | a in order && Step(s, p, a, b)
      ensures b in order
    {
      var i :| 0 <= i < |order| && order[i] == a;
    }
    forall c | c in s.cells && Reaches(s, p, start, c)
      ensures c in order
    {
      var w :| IsWalk(s, p, w) && w[0] == start && w[|w| - 1] == c;
      ClosedReach(s, p, order, w);
    }
    forall c | c in cells && Reaches(s, p, start, c) && s.cells[c].owner != Player(p)
      ensures c in order
    {
    }
  }

  /** The inner loop: visits the links of `cur` in order, activating and
      queueing each one that `p` owns and that is not yet active. */
  method VisitLinks(s: Game, p: nat, start: Pos, cells0: map<Pos, Cell>, order0: seq<Pos>, cur: Pos)
    returns (cells: map<Pos, Cell>, order: seq<Pos>)
    requires LinksWellFormed(s)
    requires Searching(s, p, start, cells0, order0)
    requires cur in order0
    ensures Searching(s, p, start, cells, order)
    ensures order0 <= order
    ensures forall b :: Step(s, p, cur, b) ==> b in order
    ensures |order| > |order0| ==> order[|order0|] !in order0
  {
    cells, order := cells0, order0;
    var nb := s.links[cur];
    var k := 0;
    while k < |nb|
      invariant 0 <= k <= |nb|
      invariant Searching(s, p, start, cells, order)
      invariant order0 <= order
      invariant forall i :: 0 <= i < k && s.cells[nb[i]].owner == Player(p) ==> nb[i] in order
      invariant |order| > |order0| ==> order[|order0|] !in order0
    {
      cells, order := VisitLink(s, p, start, cells, order, cur, nb[k]);
      k := k + 1;
    }
    forall b | Step(s, p, cur, b)
      ensures b in order
    {
      var i :| 0 <= i < |nb| && nb[i] == b;
    }
  }

  /** One link of the inner loop. */
  method VisitLink(s: Game, p: nat, start: Pos, cells0: map<Pos, Cell>, order0: seq<Pos>, cur: Pos, b: Pos)
    returns (cells: map<Pos, Cell>, order: seq<Pos>)
    requires LinksWellFormed(s)
    requires Searching(s, p, start, cells0, order0)
    requires cur in order0 && b in s.links[cur]
    ensures Searching(s, p, start, cells, order)
    ensures order == order0 || (order == order0 + [b] && b !in order0)
    ensures s.cells[b].owner == Player(p) ==> b in order
  {
    cells, order := cells0, order0;
    if !cells[b].active && cells[b].owner == Player(p) {
      Enqueue(s, p, start, cells, order, cur, b);
      cells := cells[b := cells[b].(active := true)];
      order := order + [b];
    }
  }

  /** Activating and queueing an unvisited linked cell of `p` keeps the
      search invariant. */
  lemma Enqueue(s: Game, p: nat, start: Pos, cells: map<Pos, Cell>, order: seq<Pos>, cur: Pos, b: Pos)
    requires LinksWellFormed(s)
    requires Searching(s, p, start, cells, order)
    requires cur in order && b in s.links[cur]
    requires !cells[b].active && cells[b].owner == Player(p)
    ensures b !in order
    ensures Searching(s, p, start, cells[b := cells[b].(active := true)], order + [b])
  {
    ReachesStep(s, p, start, cur, b);
    var cells' := cells[b := cells[b].(active := true)];
    var order' := order + [b];
    forall c | c in cells'
      ensures cells'[c].active == (c in order' || (s.cells[c].owner != Player(p) && s.cells[c].active))
    {
    }
    forall i, j | 0 <= i < j < |order'|
      ensures order'[i] != order'[j]
    {
      if j == |order| {
        assert order'[i] in order;
      }
    }
  }
}

=== FILE: turn.dfy ===
/**
  The start of a player's turn (`initTurn`): recompute the player's active
  territory, kill the player's units cut off from it, settle the gold, and
  wipe the player's army out if the balance went negative.
 */
module Turn {
  import opened Grid
  import opened Registry
  import opened State
  import opened Territory
  import opened Ledger

  /** A live unit of `p` standing on an inactive cell. */
  predicate Separated(cells: map<Pos, Cell>, p: nat, v: Unit)
  {
    v.alive && v.owner == p && v.pos in cells && !cells[v.pos].active
  }

  function StaysAlive(cells: map<Pos, Cell>, p: nat): Unit -> bool
  {
    (v: Unit) => !Separated(cells, p, v)
  }

  /** The registry without the separated units of `p`. */
  function Survivors(us: seq<Unit>, cells: map<Pos, Cell>, p: nat): (r: seq<Unit>)
    ensures forall v :: v in r <==> v in us && !Separated(cells, p, v)
    ensures DistinctIds(us) ==> DistinctIds(r)
  {
    Filter(us, StaysAlive(cells, p))
  }

  /** `killSeparatedUnits(p)`: removes from the registry every live unit of
      `p` whose cell is inactive, and nothing else. */
  function KillSeparatedUnits(s: Game, p: nat): (r: Game)
    ensures r == s.(units := r.units)
    ensures forall v :: v in r.units <==> v in s.units && !Separated(s.cells, p, v)
    ensures forall v :: v in r.units ==> !Separated(r.cells, p, v)
    ensures DistinctIds(s.units) ==> DistinctIds(r.units)
  {
    s.(units := Survivors(s.units, s.cells, p))
  }

  function IsArmyOf(p: nat): Unit -> bool
  {
    (v: Unit) => !(v.alive && v.owner == p)
  }

  /** `negativeGoldWipeout(p)`: sets `p`'s gold to zero and removes every
      live unit of `p` from the registry; other players' gold and units and
      the board are untouched. */
  function NegativeGoldWipeout(s: Game, p: nat): (r: Game)
    requires p < |s.gold|
    ensures r == s.(units := r.units, gold := s.gold[p := 0])
    ensures forall v :: v in r.units <==> v in s.units && !(v.alive && v.owner == p)
    ensures DistinctIds(s.units) ==> DistinctIds(r.units)
  {
    s.(units := Filter(s.units, IsArmyOf(p)), gold := s.gold[p := 0])
  }

  /** `initTurn(p)`. Afterwards:
      - a cell is active exactly when it is reachable from `p`'s HQ through
        `p`'s cells, or is not `p`'s and was active before;
      - no live unit of `p` stands on an inactive cell;
      - with `kept` the units surviving the separation and `total` the old
        gold of `p` plus the delta earned with `kept`, either `total` is not
        negative and is the new gold with `kept` as the registry, or `p` has
        zero gold and no live unit left;
      - `p`'s gold is never negative, and other players' gold and units are
        untouched;
      - the consistency invariant is kept. */
  method InitTurn(rules: Rules, s: Game, p: nat) returns (r: Game)
    requires IsBoard(s) && LinksWellFormed(s)
    requires p < |s.hqs| && s.hqs[p].pos in s.cells && p < |s.gold|
    requires UpkeepDefined(rules, s.units, p)
    requires forall b :: b in s.buildings ==> b.pos in s.cells
    ensures r.n == s.n && r.links == s.links && r.hqs == s.hqs && r.buildings == s.buildings && |r.gold| == |s.gold|
    ensures SameButActive(s.cells, r.cells)
    ensures forall c :: c in r.cells ==>
      (r.cells[c].active <==> Reaches(s, p, s.hqs[p].pos, c) || (s.cells[c].owner != Player(p) && s.cells[c].active))
    ensures forall v :: v in r.units ==> !Separated(r.cells, p, v)
    ensures var kept := Survivors(s.units, r.cells, p);
            var total := s.gold[p] + Delta(rules, s.(cells := r.cells, units := kept), p);
            && (total >= 0 ==> r.gold[p] == total && r.units == kept)
            && (total < 0 ==> r.gold[p] == 0 && forall v :: v in r.units <==> v in kept && !(v.alive && v.owner == p))
    ensures r.gold[p] >= 0
    ensures forall q :: 0 <= q < |s.gold| && q != p ==> r.gold[q] == s.gold[q]
    ensures forall v :: v in s.units && v.owner != p ==> v in r.units
    ensures forall v :: v in r.units ==> v in s.units
    ensures Consistent(rules, s) ==> Consistent(rules, r)
  {
    var s1, order := ComputeActiveCells(s, p);
    var s2 := KillSeparatedUnits(s1, p);
    assert s2 == s.(cells := s1.cells, units := Survivors(s.units, s1.cells, p));
    r := ComputeGold(rules, s2, p);
    if r.gold[p] < 0 {
      r := NegativeGoldWipeout(r, p);
    }
    if Consistent(rules, s) {
      TurnKeepsConsistent(rules, s, r);
    }
  }

  /** Changing only active flags and gold values and dropping units keeps
      the consistency invariant. */
  lemma TurnKeepsConsistent(rules: Rules, s: Game, r: Game)
    requires Consistent(rules, s)
    requires r.n == s.n && r.links == s.links && r.hqs == s.hqs && r.buildings == s.buildings && |r.gold| == |s.gold|
    requires SameButActive(s.cells, r.cells)
    requires DistinctIds(r.units) && forall v :: v in r.units ==> v in s.units
    ensures Consistent(rules, r)
  {
    forall v | v in r.units
      ensures UnitFits(rules, r, v)
      ensures r.cells[v.pos].unit == Some(v.id) && r.cells[v.pos].owner == Player(v.owner)
    {
      assert UnitFits(rules, s, v);
    }
    forall c | c in r.cells && r.cells[c].building.Some?
      ensures r.cells[c].building.value.pos == c
    {
      assert r.cells[c].building == s.cells[c].building;
    }
  }
}

=== FILE: view.dfy ===
/**
  What a player is told about the state, as pure encodings: one character
  per cell of the map and owners renumbered relative to the viewer.
 */
module View {
  import opened Grid
  import opened Registry
  import opened State

  /** What a viewer learns about a cell: a wall, free ground, or a cell of
      its own or of an opponent together with the active flag. */
  datatype Seen = Wall | Free | Own(active: bool) | Foe(active: bool)

  function Observe(c: Cell, viewer: nat): Seen
  {
    match c.owner
    case Void => Wall
    case Neutral => Free
    case Player(i) => if i == viewer then Own(c.active) else Foe(c.active)
  }

  /** Reads a map character back. */
  function ReadChar(ch: char): (r: Option<Seen>)
    ensures r.None? <==> ch !in {'#', '.', 'o', 'O', 'x', 'X'}
  {
    match ch
    case '#' => Some(Wall)
    case '.' => Some(Free)
    case 'o' => Some(Own(false))
    case 'O' => Some(Own(true))
    case 'x' => Some(Foe(false))
    case 'X' => Some(Foe(true))
    case _ => None
  }

  function ToUpper(ch: char): char
  {
    if 'a' <= ch <= 'z' then ch - 'a' + 'A' else ch
  }

  /** The character of a cell in the map sent to `viewer`: `#` for VOID,
      `.` for NEUTRAL, `o` for the viewer's cells and `x` for the others',
      upper case when the cell is active. It reads back as exactly what the
      viewer may know of the cell. */
  function CellChar(c: Cell, viewer: nat): (ch: char)
    ensures ReadChar(ch) == Some(Observe(c, viewer))
  {
    match c.owner
    case Void => '#'
    case Neutral => '.'
    case Player(i) =>
      var data := if i == viewer then 'o' else 'x';
      if c.active then ToUpper(data) else data
  }

  /** Two cells get the same character exactly when the viewer cannot tell
      them apart. */
  lemma CellCharFaithful(c1: Cell, c2: Cell, viewer: nat)
    ensures CellChar(c1, viewer) == CellChar(c2, viewer) <==> Observe(c1, viewer) == Observe(c2, viewer)
  {
    if Observe(c1, viewer) == Observe(c2, viewer) {
      match c1.owner
      case Void =>
      case Neutral =>
      case Player(i) =>
    }
  }

  /** The map as sent: one string per row `y`, whose `x`-th character is
      that of cell (x, y). */
  function MapRows(s: Game, viewer: nat): (rows: seq<string>)
    requires IsBoard(s)
    ensures |rows| == s.n
    ensures forall y :: 0 <= y < s.n ==> |rows[y]| == s.n
    ensures forall x, y :: 0 <= x < s.n && 0 <= y < s.n ==> ReadChar(rows[y][x]) == Some(Observe(s.cells[Pos(x, y)], viewer))
  {
    seq(s.n, y requires 0 <= y < s.n =>
      seq(s.n, x requires 0 <= x < s.n => CellChar(s.cells[Pos(x, y)], viewer)))
  }

  /** Java's `%` on `int`: the remainder truncated toward zero, so it takes
      the sign of the dividend. */
  function JavaRem(a: int, b: int): (r: int)
    requires b > 0
    ensures a >= 0 ==> r == a % b && 0 <= r < b
    ensures a < 0 ==> -b < r <= 0
  {
    if a >= 0 then a % b else -((-a) % b)
  }

  /** The owner index sent to `viewer`:
      `(owner - viewer + count) % count`. */
  function RelativeOwner(owner: int, viewer: int, count: int): (r: int)
    requires count > 0
    ensures 0 <= owner < count && 0 <= viewer < count ==> 0 <= r < count
  {
    JavaRem(owner - viewer + count, count)
  }

  /** For owners and viewers in range, the relative owner counts how many
      seats after the viewer the owner sits, going round the table. */
  lemma RelativeOwnerValue(owner: int, viewer: int, count: int)
    requires 0 <= owner < count && 0 <= viewer < count
    ensures RelativeOwner(owner, viewer, count) == if owner >= viewer then owner - viewer else owner - viewer + count
  {
    var a := owner - viewer + count;
    assert RelativeOwner(owner, viewer, count) == a % count;
    if a >= count {
      ModSubtract(a, count);
    } else {
      ModSmall(a, count);
    }
  }

  /** For owners and viewers in range, the relative owner is zero exactly
      for the viewer's own things, adding the viewer back gives the owner,
      and different owners stay different. */
  lemma RelativeOwnerProperties(owner: int, other: int, viewer: int, count: int)
    requires 0 <= owner < count && 0 <= other < count && 0 <= viewer < count
    ensures RelativeOwner(owner, viewer, count) == 0 <==> owner == viewer
    ensures (viewer + RelativeOwner(owner, viewer, count)) % count == owner
    ensures RelativeOwner(owner, viewer, count) == RelativeOwner(other, viewer, count) ==> owner == other
  {
    RelativeOwnerValue(owner, viewer, count);
    RelativeOwnerValue(other, viewer, count);
    var t := viewer + RelativeOwner(owner, viewer, count);
    if owner >= viewer {
      assert t == owner;
      ModSmall(t, count);
    } else {
      assert t == owner + count;
      ModSubtract(t, count);
    }
  }

  lemma ModSmall(a: int, count: int)
    requires 0 <= a < count
    ensures a % count == a
  {
    assert a == 0 * count + a;
  }

  lemma ModSubtract(a: int, count: int)
    requires count <= a < 2 * count
    ensures a % count == a - count
  {
    assert a == 1 * count + (a - count);
  }
}
